=== FILE: README.md ===
# Voltammetry plotter core in Dafny

This project models the data path of a small web app for plotting
electrochemistry measurements. A user uploads potentiostat exports (tables
separated by `;`), types a scan-range expression such as `1-3,5` or `all`,
and presses "Process Data". For each uploaded file the app does three things:

- It classifies the table as cyclic voltammetry (CV), differential pulse
  voltammetry (DPV) or unknown, from its column headers alone.
- For CV, it converts the current column from amperes to microamperes in
  place. It then resolves the scan-range expression against the scans the
  file holds and emits one line per selected scan. Each line is coloured
  from the chart library's cyclic palette.
- For DPV, it converts the delta-current column in place and emits one line
  for the whole file.

All lines go into one combined figure, in upload order. A file that cannot
be read, has an unknown format, or raises while it is processed is reported
and contributes nothing.

## Modules

- `Results`: `Option` and `Result`.
- `Seqs`: sequence helpers. These cover row masks (`Keep`, `TrueIndices`),
  first-appearance de-duplication (`Unique`, as pandas' `unique()`), sorting
  of distinct integers (`SortDistinct`, as `sorted(set)`) and `Flatten`.
- `Text`: Python's `str.strip()` (with the `isspace` character set),
  `str.split(sep)` (empty pieces kept) and the case-insensitive match of
  `"all"`.
- `Numerals`: Python's `int(str)` in base 10. It accepts surrounding
  whitespace, a sign and `_` digit groups. The module also has `str(int)`.
- `ScanRange`: `parse_scan_range`. Each comma-separated piece becomes a
  `Token` (`Single`, `Span` or `Malformed`).
- `Tables`: a table is a map from header to a typed column (`Integers`,
  `Reals` or `Texts`) whose columns all have the same height. The module
  also has the row-mask and `*= 1e6` column operations.
- `Classify`: `detect_file_type`.
- `Plot`: palette draws (`Drawn(p, k)` is the colour of the k-th `next()` on
  `itertools.cycle(p)`), legends and series.
- `Cv`: `process_cv`. `Dpv`: `process_dpv`.
- `Batch`: the per-file loop body (`ProcessFile`) and the loop itself
  (`ProcessBatch`).

## Behaviour worth knowing

- **Partial parses are kept.** The `try` surrounds the whole token loop
  (app.py:54-63). A malformed piece therefore keeps the scans collected
  before it: `"1,x,3"` selects scan 1 and shows the error
  (`ScanRange.MalformedPieceKeepsEarlierScans`).
- **Conversion is not idempotent.** The current is multiplied in the
  caller's DataFrame (app.py:77, app.py:118), so processing the same table
  again scales it by 10^12 (`Cv.ProcessingTwiceScalesTwice`). In the batch
  every file is read afresh, so this never shows there.
- **`all` keeps file order.** With `all`, the scans come back in the order
  they first appear in the Scan column (app.py:50, app.py:78), not sorted.
  Only other expressions give ascending order.
- **The colour cursor is per call.** It is not shared across files: every
  `process_cv` call builds its own cycle (app.py:74). With one file, the
  first scan gets the palette's second colour, because the first was taken
  for `file_colors`.

## Model

| member | source | states |
|---|---|---|
| Classify.DetectFileType | app.py:41-46 | CV exactly when all three CV headers are present; DPV exactly when the CV triple is incomplete and both DPV headers are present; Unknown otherwise |
| Classify.CvWinsOverDpv | app.py:42-45 | a table carrying both header signatures is classified CV |
| Classify.ExtraColumnsIgnored | app.py:41-46 | headers outside the two signatures never change the classification |
| Classify.MoreColumnsKeepTechnique | app.py:41-46 | adding headers keeps a CV table CV and never makes a DPV table Unknown |
| Classify.HeaderExamples | app.py:41-46 | the CV triple is CV, the DPV pair is DPV, an unrelated header set is Unknown |
| Text.StripBy | app.py:56 | the result is the infix after the leading run of blanks, followed only by blanks, with no blank at either end |
| Text.StripByKeepsTrimmed | app.py:56 | text with no blank at either end is left unchanged |
| Text.Split | app.py:55 | one more piece than separators, and no piece contains the separator |
| Text.JoinSplit | app.py:55 | joining the pieces with the separator gives back the original text |
| Text.SplitJoin | app.py:55 | splitting a join of separator-free pieces gives back the pieces |
| Text.SplitWithoutSeparator | app.py:55 | text without a comma is a single piece |
| Text.LeadingSeparatorGivesEmptyPiece | app.py:55 | a leading separator yields an empty first piece (which int() then rejects) |
| Text.AllKeywordSpellings | app.py:49 | the keyword test accepts exactly the eight capitalisations of "all" |
| Text.KeywordHasOnlyLetters | app.py:49 | text holding any character other than a, l (either case) is not the keyword |
| Numerals.ParseInt | app.py:58 | int() succeeds only on text that contains a digit |
| Numerals.ParseIntCanonical | app.py:58-61 | when int() reads n from a piece, the piece is str(n) once its surrounding whitespace, a '+', the underscores, the leading zeros and the minus sign of a zero are removed |
| Numerals.CanonicalParses | app.py:58-61 | int() accepts every well-grouped literal (whitespace, sign, underscores, leading zeros) and reads n from it whenever its canonical form is str(n); with ParseIntCanonical, int(t) == n exactly when that holds |
| Numerals.IntToStringInjective | app.py:101 | str() never writes two different integers the same way, so the scan number in a legend is unambiguous |
| Numerals.SignedGroupedExample | app.py:61 | int("+0_07") reads 7 |
| Numerals.DecimalValue | app.py:101 | the decimal rendering of n is well grouped and denotes n |
| Numerals.ParseIntOfIntToString | app.py:61 | int(str(n)) == n for every integer, negative ones included |
| Numerals.ParseIntOfDecimal | app.py:61 | a plain decimal numeral parses to its value |
| Numerals.ParseIntOfEmpty | app.py:61 | an empty piece is not a number, so "1,,2" raises |
| ScanRange.ParseToken | app.py:56-61 | every piece reads as a token whose scans are non-negative, since any '-' sends the piece down the range branch; a span comes only from a stripped piece with exactly one dash |
| ScanRange.SelectedScansAreNonNegative | app.py:48-68 | any expression other than "all" selects only non-negative scans |
| ScanRange.Contribution | app.py:57-61 | a single token adds its scan; a span a-b adds exactly the integers from a to b; a malformed token adds nothing |
| ScanRange.Interval | app.py:59 | range(start, end + 1) holds exactly the integers from start to end |
| ScanRange.FirstMalformed | app.py:54-62 | every token before the index is well formed and the token at it, if any, is malformed |
| ScanRange.RequestedUpToFirstMalformed | app.py:54-63 | the error is shown exactly when some token is malformed, and a scan is collected exactly when a token before the first malformed one asks for it |
| ScanRange.ParseScanRange | app.py:48-68 | "all" in any capitalisation returns the available scans unchanged with no error; otherwise the result is strictly ascending, holds exactly the available scans some token before the first malformed one requested, and flags an error exactly when some piece is malformed |
| ScanRange.SelectionIsSortedIntersection | app.py:65 | the result is the only strictly ascending list of the requested, available scans |
| ScanRange.SingleTokenOfDecimal | app.py:60-61 | a decimal numeral is a single-scan token for its value |
| ScanRange.DashedNumeralsSplit | app.py:56-58 | digits around one dash survive strip() and split at the dash into the two numerals |
| ScanRange.SpanTokenOfNumerals | app.py:57-59 | two numerals joined by a dash read as the span between their values |
| ScanRange.SpanTokenOfDecimals | app.py:57-59 | "a-b" is the span from a to b; it contributes exactly a..b, and nothing when a > b |
| ScanRange.LeadingDashIsMalformed | app.py:57-58 | a piece starting with '-' ("-3") is malformed, because the split yields an empty first half |
| ScanRange.TwoDashesAreMalformed | app.py:58 | a piece with two or more dashes is malformed, because unpacking into start and end fails |
| ScanRange.DashedNumeralsArePiece | app.py:49-55 | a dashed pair of numerals is not the keyword and forms a single comma piece |
| ScanRange.SpanExpressionSelects | app.py:48-68 | the expression "a-b" selects exactly the available scans from a to b, ascending, with no error |
| ScanRange.ReversedRangeSelectsNothing | app.py:59 | "3-1" against scans 1, 2, 3 selects nothing and shows no error |
| ScanRange.MalformedPieceKeepsEarlierScans | app.py:54-65 | "1,x,3" against 1, 2, 3 selects scan 1 and shows the error |
| ScanRange.LetterIsMalformed | app.py:61-62 | a one-letter piece raises ValueError |
| Seqs.Unique | app.py:78 | unique() lists each value of the Scan column exactly once and nothing else |
| Seqs.UniqueKeepsFirstAppearanceOrder | app.py:78 | a scan comes before another in unique() exactly when it first appears earlier |
| Seqs.SortDistinct | app.py:65 | sorted(set) is strictly ascending and holds the same values |
| Seqs.AscendingDeterminedByElems | app.py:65 | two strictly ascending lists with the same values are equal |
| Seqs.Keep | app.py:88 | a row mask keeps as many rows as it has set bits |
| Seqs.KeepReadsSelectedRows | app.py:88 | masking reads exactly the rows whose bit is set, in row order |
| Seqs.FlattenConcat | app.py:157-158 | appending one file's traces extends the combined list by exactly those traces |
| Seqs.FlattenAt | app.py:144-158 | a file's traces sit in the combined list right after the traces of all earlier files |
| Tables.KeepRows | app.py:88-95 | df[mask][name] has one row per set bit and keeps the column's type |
| Tables.Rows | app.py:88-95 | selecting rows by index yields one value per index |
| Tables.KeepRowsReadsSelectedRows | app.py:88-95 | the masked column is the column read at the selected row numbers |
| Tables.Times | app.py:77 | *= 1e6 succeeds exactly on number columns (or an empty text column), keeps the height, and multiplies every value |
| Tables.TimesTwice | app.py:77 | converting twice scales by the product of the factors, 10^12 |
| Tables.TimesChangesNonZero | app.py:77 | a column with a non-zero value changes when converted |
| Tables.KeepRowsAfterTimes | app.py:77-95 | converting then masking equals masking then converting |
| Plot.Drawn | app.py:74-75 | every draw is a palette colour, and the first turn yields the palette in order |
| Plot.ScanLegendDeterminesScan | app.py:101 | two scans of one file with the same legend text are the same scan |
| Plot.DrawsWithinOneTurnDiffer | app.py:74 | draws fewer than a palette length apart differ when the palette's colours are distinct |
| Plot.DrawsWrapAround | app.py:74 | draws a palette length apart give the same colour |
| Plot.SuccessiveDrawsDiffer | app.py:96 | colours drawn one after another differ within one turn of the palette |
| Cv.EmitScans | app.py:87-103 | every selected scan yields either a line or a "no data" warning |
| Cv.EmitScansColors | app.py:96 | with one file the lines take successive palette colours from the cursor, which advances once per line; with several, every line takes the colour at the file's index |
| Cv.EmitScansOfPresentScans | app.py:87-103 | when every selected scan occurs, the loop fails only on a missing potential column or a bad colour index, and otherwise yields one line per scan, in order, with that scan's rows and legend and no warnings |
| Cv.Converted | app.py:77 | the conversion replaces only the current column and keeps every other column and the height |
| Cv.SelectedScansArePresent | app.py:78-84 | every selected scan occurs in the Scan column |
| Cv.ProcessCv | app.py:72-112 | success leaves the table's other columns unchanged and the current scaled by 10^6; a CV-ready table with a usable colour index always succeeds, with one line per selected scan carrying its legend, potential rows and scaled current rows; colours are the (k+2)-th draw for one file and the file's colour otherwise |
| Cv.SeriesHoldRowsOfTheirScan | app.py:87-95 | each line has at least one row, and its x and y are the potential and scaled current of exactly the rows of its scan |
| Cv.AllPlotsEveryScanInFirstAppearanceOrder | app.py:49-50 | with "all", every distinct scan gets a line, in order of first appearance in the Scan column |
| Cv.SeriesInAscendingScanOrder | app.py:65 | any other expression plots its scans in strictly ascending order |
| Cv.SingleFileFirstScanGetsSecondColor | app.py:74-96 | with one file, the first line is drawn in the palette's second colour |
| Cv.SingleFileScansGetDistinctColors | app.py:96 | with one file, lines fewer than a palette length apart get different colours |
| Cv.ProcessingTwiceScalesTwice | app.py:77 | processing a CV-ready table a second time succeeds and leaves the original current scaled by 10^12 |
| Cv.ProcessingChangesNonZeroCurrent | app.py:77 | a successful run changes the caller's table whenever its current holds a non-zero value |
| Dpv.ProcessDpv | app.py:116-135 | succeeds exactly when the delta current is present and scalable and the base potential is present; the one line is named after the file, has no explicit colour, plots the base potential against the scaled delta current, and only the delta column of the table changes; otherwise the KeyError or TypeError raised first |
| Dpv.DeltaCurrentInMicroamperes | app.py:118 | every y value is the table's delta current times 10^6 |
| Batch.ProcessFile | app.py:145-162 | a file is either dropped with exactly one message naming it, or processed with only the notes process_cv shows. Unreadable and unknown files are dropped. A CV file is processed exactly when it is CV-ready, with one line per selected scan. A DPV file is processed exactly when its delta current scales, with one uncoloured line on the base potential. Colours follow the one-file or several-file policy |
| Batch.ProcessBatch | app.py:140-162 | the combined figure holds every file's lines, file after file in upload order, and the messages likewise |
| Batch.FileTracesInPlace | app.py:157-158 | file i's lines occupy the combined list right after the lines of files 0..i-1 |
| Batch.DroppedFileAddsNoTraces | app.py:153-162 | a dropped file leaves the combined list as the files before and after it make it |
| Batch.FilesGetDistinctColors | app.py:142-150 | with several files and distinct palette colours, files fewer than a palette length apart draw their coloured lines in different colours |
| Batch.SingleUploadBatch | app.py:142-150 | one upload on its own is processed as the single-file case |
| Batch.ExampleCvOutcome | app.py:145-150 | a two-scan CV file at position 0 of 2 yields its two lines in the palette's first colour |
| Batch.ExampleDpvOutcome | app.py:151-152 | a DPV file yields one uncoloured line named after the file, whose delta current is in microamperes |
| Batch.TwoUploads | app.py:144-158 | two uploads produce the first file's lines followed by the second's |
| Batch.HeaderOnlyCvOutcome | app.py:72-112 | a CV export holding only its header row is processed with no line and no message |
| Batch.CvThenDpvExample | app.py:140-162 | a CV file followed by a DPV file gives the two scan lines and then the DPV line, with no messages |

## Left out

- Streamlit widgets, session state, the zoom bookkeeping, figure layout
  (titles, axis labels, plot height), the `pages/` directory and the
  rendering demo test_plotly.py are not part of this model.
- app.py does not implement wide-format export or zip packaging; they are
  not modelled.
- `pd.read_csv` is not modelled. Its outcome is a parameter: an
  `Upload` holds the parsed `Table`, or `None` when reading raised. Column
  types are taken as pandas inferred them.
- Floating point: values are `real`, so there is no rounding in `*= 1e6`,
  no NaN and no infinity.
- The palette is a parameter (any non-empty sequence of colours). The
  library's actual default colourway is not modelled.
- Numerals.ParseInt: accepts ASCII digits only. Python's `int()` also takes
  other Unicode decimal digits and refuses literals above its digit limit.
- Cv.ProcessCv: app.py goes on with a Scan column that pandas read as
  floats or text, where the model drops the file with
  `ScanColumnNotInteger`. Floats compare equal to the parsed integers, so
  they are selected and plotted as integer scans would be; a float column
  with an empty cell holds NaN, which "all" selects, which matches no row
  (app.py:88), and which shows the "no data" warning (app.py:90-92). For a
  text column, any expression other than "all" selects nothing, because
  `set(ints) & set(texts)` is empty (app.py:65); with "all" each text value
  is compared with the text column itself (app.py:88) and plotted. The one
  case the model keeps is an empty text column, which a header-only export
  produces; it is treated as a column with no scans.
- Cv.ProcessCv: messages shown before an exception inside `process_cv` are
  dropped together with the figure. Only the exception is reported.
- Cv.ProcessCv: the `[1]` fallback for a missing Scan column is modelled.
  It cannot be reached through the batch, because only tables with a Scan
  column are classified CV.
- Cv.EmitScans: the "no data found for scan" warning is modelled. Through
  `Cv.ProcessCv` it cannot fire in the model, because model scans are
  integers and every selected scan comes from the Scan column itself
  (`Cv.EmitScansOfPresentScans`). In app.py it fires for a NaN scan, which
  the model does not represent (see `Cv.ProcessCv` above).
- Batch.ProcessFile: requires `fileIndex < numFiles`, as `enumerate` over
  the uploads guarantees. Negative indices (Python's `file_colors[-1]`) do
  not arise and are not modelled.
- Batch.ProcessBatch: the guard "files uploaded and the button pressed"
  is the UI's. The model processes whatever upload list it is given.
- Plot.ScanLegendDeterminesScan: legends are a `Legend` datatype.
  `Rendered()` gives the text `"<file> - Scan <n>"`. Traces are compared
  by datatype, not by text.

=== FILE: batch.dfy ===
/** The "Process Data" loop: every uploaded file is read, classified and
    processed in upload order; its series are appended to the combined
    figure, and a file that is unreadable, of unknown format or raises is
    reported and contributes nothing. */
module Batch {
  import opened Results
  import opened Seqs
  import opened Tables
  import Classify
  import Cv
  import Dpv
  import Plot
  import ScanRange
  import Text

  /** An uploaded file: its name and the table read_csv produced, or None
      when reading it raised. */
  datatype Upload = Upload(name: string, contents: Option<Table>)

  /** A message shown to the user during the batch. */
  datatype Report =
    | Note(note: Cv.Note)                // shown by process_cv: a bad range or a missing scan
    | Skipped(file: string)              // "Skipping <file>: Unknown file format."
    | Failed(file: string, error: Error) // "Error processing <file>: <error>"

  /** Traces for the combined figure and messages for the user: what one
      file adds, or what the whole batch shows. */
  datatype Outcome = Outcome(traces: seq<Plot.Series>, reports: seq<Report>)

  function Notes(notes: seq<Cv.Note>): (r: seq<Report>)
    ensures |r| == |notes|
    ensures forall k :: 0 <= k < |r| ==> r[k] == Note(notes[k])
  {
    seq(|notes|, k requires 0 <= k < |notes| => Note(notes[k]))
  }

  /** The file was left out of the figure with exactly one message naming it. */
  predicate Dropped(name: string, r: Outcome) {
    && r.traces == []
    && |r.reports| == 1
    && (r.reports[0] == Skipped(name) || (r.reports[0].Failed? && r.reports[0].file == name))
  }

  /** The file was processed: nothing but notes was shown for it. */
  predicate OnlyNotes(r: Outcome) {
    forall k :: 0 <= k < |r.reports| ==> r.reports[k].Note?
  }

  /** The body of the loop for the file at position fileIndex of numFiles. */
  function ProcessFile(u: Upload, scanRange: string, numFiles: nat, fileIndex: nat,
                       palette: Plot.Palette): (r: Outcome)
    requires fileIndex < numFiles
    ensures Dropped(u.name, r) != OnlyNotes(r)
    ensures u.contents.None? ==> r == Outcome([], [Failed(u.name, Unreadable)])
    ensures u.contents.Some? && Classify.TechniqueOf(u.contents.value) == Classify.Unknown ==>
      r == Outcome([], [Skipped(u.name)])
    // a CV file is plotted exactly when its current can be scaled and its Scan column holds integers
    ensures u.contents.Some? && Classify.TechniqueOf(u.contents.value) == Classify.CV ==>
      var t := u.contents.value;
      && (Cv.CvReady(t) <==> OnlyNotes(r))
      && (Cv.CvReady(t) ==>
            var sel := Cv.SelectedScans(t, scanRange);
            && r.reports == Notes(Cv.ParseNotes(sel))
            && |r.traces| == |sel.scans|
            && forall k :: 0 <= k < |sel.scans| ==> r.traces[k].legend == Plot.ScanLegend(u.name, sel.scans[k]))
      && (!Cv.CvReady(t) ==>
            r.reports == [Failed(u.name, if !t.columns[CurrentColumn].Numeric() then NonNumericColumn(CurrentColumn)
                                         else ScanColumnNotInteger)])
    // a DPV file is plotted as one series exactly when its delta current can be scaled
    ensures u.contents.Some? && Classify.TechniqueOf(u.contents.value) == Classify.DPV ==>
      var t := u.contents.value;
      && (Dpv.DpvReady(t) <==> OnlyNotes(r))
      && (Dpv.DpvReady(t) ==>
            && r.reports == []
            && |r.traces| == 1
            && r.traces[0].legend == Plot.FileLegend(u.name)
            && r.traces[0].color == None
            && r.traces[0].x == t.columns[BasePotentialColumn])
      && (!Dpv.DpvReady(t) ==> r.reports == [Failed(u.name, NonNumericColumn(DeltaCurrentColumn))])
    ensures numFiles == 1 ==>
      forall k :: 0 <= k < |r.traces| ==>
        r.traces[k].color == None || r.traces[k].color == Some(Plot.Drawn(palette, k + 1))
    ensures numFiles != 1 ==>
      forall k :: 0 <= k < |r.traces| ==>
        r.traces[k].color == None || r.traces[k].color == Some(Plot.Drawn(palette, fileIndex))
  {
    match u.contents
    case None => Outcome([], [Failed(u.name, Unreadable)])
    case Some(t) =>
      match Classify.TechniqueOf(t)
      case CV =>
        (match Cv.ProcessCv(t, u.name, scanRange, numFiles, fileIndex, palette)
         case Success(out) => Outcome(out.series, Notes(out.notes))
         case Failure(e) => Outcome([], [Failed(u.name, e)]))
      case DPV =>
        (match Dpv.ProcessDpv(t, u.name)
         case Success(out) => Outcome([out.series], [])
         case Failure(e) => Outcome([], [Failed(u.name, e)]))
      case Unknown => Outcome([], [Skipped(u.name)])
  }

  /** The traces each file contributes, in upload order; num_files counts
      every upload and file_index is the position in the upload list. */
  function TraceLists(uploads: seq<Upload>, scanRange: string, palette: Plot.Palette): (r: seq<seq<Plot.Series>>)
    ensures |r| == |uploads|
  {
    seq(|uploads|, i requires 0 <= i < |uploads| => ProcessFile(uploads[i], scanRange, |uploads|, i, palette).traces)
  }

  function ReportLists(uploads: seq<Upload>, scanRange: string, palette: Plot.Palette): (r: seq<seq<Report>>)
    ensures |r| == |uploads|
  {
    seq(|uploads|, i requires 0 <= i < |uploads| => ProcessFile(uploads[i], scanRange, |uploads|, i, palette).reports)
  }

  /** The loop: the combined figure holds the traces of every file, file
      after file, and the messages likewise. */
  method ProcessBatch(uploads: seq<Upload>, scanRange: string, palette: Plot.Palette)
    returns (shown: Outcome)
    ensures shown == Outcome(Flatten(TraceLists(uploads, scanRange, palette)),
                             Flatten(ReportLists(uploads, scanRange, palette)))
  {
    ghost var traceLists := TraceLists(uploads, scanRange, palette);
    ghost var reportLists := ReportLists(uploads, scanRange, palette);
    var combined: seq<Plot.Series> := [];
    var reports: seq<Report> := [];
    var fileIndex := 0;
    while fileIndex < |uploads|
      invariant fileIndex <= |uploads|
      invariant combined == Flatten(traceLists[..fileIndex])
      invariant reports == Flatten(reportLists[..fileIndex])
    {
      var outcome := ProcessFile(uploads[fileIndex], scanRange, |uploads|, fileIndex, palette);
      assert traceLists[..fileIndex + 1][..fileIndex] == traceLists[..fileIndex];
      assert reportLists[..fileIndex + 1][..fileIndex] == reportLists[..fileIndex];
      combined := combined + outcome.traces;
      reports := reports + outcome.reports;
      fileIndex := fileIndex + 1;
    }
    assert traceLists[..|uploads|] == traceLists;
    assert reportLists[..|uploads|] == reportLists;
    shown := Outcome(combined, reports);
  }

  /** The combined figure holds each file's traces as one contiguous block,
      after those of the files uploaded before it. */
  lemma FileTracesInPlace(uploads: seq<Upload>, scanRange: string, palette: Plot.Palette, i: nat)
    requires i < |uploads|
    ensures var lists := TraceLists(uploads, scanRange, palette);
      Flatten(lists) == Flatten(lists[..i])
                        + ProcessFile(uploads[i], scanRange, |uploads|, i, palette).traces
                        + Flatten(lists[i + 1..])
  {
    FlattenAt(TraceLists(uploads, scanRange, palette), i);
  }

  /** A file that is unreadable, of unknown format or raises leaves the
      combined figure as if only the other files' traces were added. */
  lemma DroppedFileAddsNoTraces(uploads: seq<Upload>, scanRange: string, palette: Plot.Palette, i: nat)
    requires i < |uploads|
    requires Dropped(uploads[i].name, ProcessFile(uploads[i], scanRange, |uploads|, i, palette))
    ensures var lists := TraceLists(uploads, scanRange, palette);
      Flatten(lists) == Flatten(lists[..i] + lists[i + 1..])
  {
    FlattenSkipsEmpty(TraceLists(uploads, scanRange, palette), i);
  }

  /** With several files, each file's coloured traces take the colour of its
      position in the upload list, counting files that were skipped or
      failed; so two files fewer than a palette length apart never share a
      colour when the palette's colours are distinct. */
  lemma FilesGetDistinctColors(uploads: seq<Upload>, scanRange: string, palette: Plot.Palette,
                               i: nat, j: nat, a: nat, b: nat)
    requires |uploads| > 1 && Distinct(palette)
    requires i < j < |uploads| && j - i < |palette|
    requires var lists := TraceLists(uploads, scanRange, palette);
      a < |lists[i]| && b < |lists[j]| && lists[i][a].color.Some? && lists[j][b].color.Some?
    ensures var lists := TraceLists(uploads, scanRange, palette);
      && lists[i][a].color == Some(Plot.Drawn(palette, i))
      && lists[j][b].color == Some(Plot.Drawn(palette, j))
      && lists[i][a].color != lists[j][b].color
  {
    Plot.DrawsWithinOneTurnDiffer(palette, i, j);
  }

  /** A single upload is drawn alone: the combined figure is that file's
      traces, and the k-th coloured trace takes the (k+1)-th colour of the
      cycle, the first having gone to file_colors. */
  lemma SingleUploadBatch(upload: Upload, scanRange: string, palette: Plot.Palette)
    ensures var combined := Flatten(TraceLists([upload], scanRange, palette));
      && combined == ProcessFile(upload, scanRange, 1, 0, palette).traces
      && forall k :: 0 <= k < |combined| ==>
           combined[k].color == None || combined[k].color == Some(Plot.Drawn(palette, k + 1))
  {
    var lists := TraceLists([upload], scanRange, palette);
    assert lists[..0] == [];
  }

  /** A CV export holding scans 1, 1, 2 and a DPV export of one row. */
  const ExampleCv: Table := Frame(map[ScanColumn := Integers([1, 1, 2]),
                                      PotentialColumn := Reals([0.1, 0.2, 0.3]),
                                      CurrentColumn := Reals([1.0, 2.0, 3.0])], 3)
  const ExampleDpv: Table := Frame(map[BasePotentialColumn := Reals([0.5]),
                                       DeltaCurrentColumn := Integers([2])], 1)

  lemma ExampleCvOutcome(palette: Plot.Palette)
    ensures var r := ProcessFile(Upload("a.csv", Some(ExampleCv)), "all", 2, 0, palette);
      && r.reports == []
      && |r.traces| == 2
      && r.traces[0].legend == Plot.ScanLegend("a.csv", 1)
      && r.traces[1].legend == Plot.ScanLegend("a.csv", 2)
      && r.traces[0].color == r.traces[1].color == Some(Plot.Drawn(palette, 0))
  {
    assert Classify.TechniqueOf(ExampleCv) == Classify.CV;
    assert Cv.CvReady(ExampleCv);
    assert Unique([1, 1, 2]) == [1, 2] by {
      assert [1, 1, 2][..2] == [1, 1];
      assert [1, 1][..1] == [1];
      assert [1][..0] == [];
    }
    Text.AllKeywordSpellings("all");
    assert Cv.SelectedScans(ExampleCv, "all") == ScanRange.Selection([1, 2], false);
  }

  lemma ExampleDpvOutcome(palette: Plot.Palette)
    ensures var r := ProcessFile(Upload("b.txt", Some(ExampleDpv)), "all", 2, 1, palette);
      && r.reports == []
      && |r.traces| == 1
      && r.traces[0].legend == Plot.FileLegend("b.txt")
      && r.traces[0].color == None
      && r.traces[0].y == Reals([2000000.0])
  {
    assert ScanColumn !in ExampleDpv.columns;
    assert Classify.TechniqueOf(ExampleDpv) == Classify.DPV;
    assert Dpv.DpvReady(ExampleDpv);
    assert Times(Integers([2]), MicroPerUnit).value.reals == [2000000.0];
  }

  /** A CV export holding only its header row: pandas reads every column as
      empty text, the file is processed, and nothing is drawn or shown. */
  const HeaderOnlyCv: Table := Frame(map[ScanColumn := Texts([]),
                                         PotentialColumn := Texts([]),
                                         CurrentColumn := Texts([])], 0)

  lemma HeaderOnlyCvOutcome(palette: Plot.Palette)
    ensures ProcessFile(Upload("e.csv", Some(HeaderOnlyCv)), "all", 1, 0, palette) == Outcome([], [])
  {
    assert Classify.TechniqueOf(HeaderOnlyCv) == Classify.CV;
    assert Cv.CvReady(HeaderOnlyCv);
    Text.AllKeywordSpellings("all");
    assert Cv.SelectedScans(HeaderOnlyCv, "all") == ScanRange.Selection([], false);
  }

  /** Two uploads: the figure is the first file's traces followed by the
      second's, and the messages likewise. */
  lemma TwoUploads(first: Upload, second: Upload, scanRange: string, palette: Plot.Palette)
    ensures Flatten(TraceLists([first, second], scanRange, palette))
         == ProcessFile(first, scanRange, 2, 0, palette).traces + ProcessFile(second, scanRange, 2, 1, palette).traces
    ensures Flatten(ReportLists([first, second], scanRange, palette))
         == ProcessFile(first, scanRange, 2, 0, palette).reports + ProcessFile(second, scanRange, 2, 1, palette).reports
  {
    var traceLists := TraceLists([first, second], scanRange, palette);
    var reportLists := ReportLists([first, second], scanRange, palette);
    assert traceLists[..1][..0] == [] && reportLists[..1][..0] == [];
    assert Flatten(traceLists[..1]) == traceLists[0];
    assert Flatten(reportLists[..1]) == reportLists[0];
    assert Flatten(traceLists) == traceLists[0] + traceLists[1];
    assert Flatten(reportLists) == reportLists[0] + reportLists[1];
  }

  /** The CV export followed by the DPV export, plotted with "all": the
      figure shows scan 1 and scan 2 of the first file in the colour of
      position 0, then the DPV series in microamperes without a colour, and
      no message is shown. */
  lemma CvThenDpvExample(palette: Plot.Palette)
    ensures
      var uploads := [Upload("a.csv", Some(ExampleCv)), Upload("b.txt", Some(ExampleDpv))];
      var combined := Flatten(TraceLists(uploads, "all", palette));
      && Flatten(ReportLists(uploads, "all", palette)) == []
      && |combined| == 3
      && combined[0].legend == Plot.ScanLegend("a.csv", 1)
      && combined[1].legend == Plot.ScanLegend("a.csv", 2)
      && combined[2].legend == Plot.FileLegend("b.txt")
      && combined[0].color == combined[1].color == Some(Plot.Drawn(palette, 0))
      && combined[2].color == None
      && combined[2].y == Reals([2000000.0])
  {
    ExampleCvOutcome(palette);
    ExampleDpvOutcome(palette);
    TwoUploads(Upload("a.csv", Some(ExampleCv)), Upload("b.txt", Some(ExampleDpv)), "all", palette);
  }
}

=== FILE: classify.dfy ===
/** Measurement technique detection from a table's column headers
    (detect_file_type). */
module Classify {
  import opened Tables

  datatype Technique = CV | DPV | Unknown

  /** Headers a cyclic-voltammetry export always has. */
  const CvSignature: set<string> := {ScanColumn, PotentialColumn, CurrentColumn}

  /** Headers a differential-pulse export always has. */
  const DpvSignature: set<string> := {BasePotentialColumn, DeltaCurrentColumn}

  /** CV when all three CV headers are present; otherwise DPV when both DPV
      headers are; otherwise Unknown. Only header names are looked at. */
  function DetectFileType(names: set<string>): (r: Technique)
    ensures r == CV <==> CvSignature <= names
    ensures r == DPV <==> !(CvSignature <= names) && DpvSignature <= names
  {
    if ScanColumn in names && PotentialColumn in names && CurrentColumn in names then CV
    else if BasePotentialColumn in names && DeltaCurrentColumn in names then DPV
    else Unknown
  }

  /** The technique of a table is decided by its header names alone. */
  function TechniqueOf(t: Table): Technique {
    DetectFileType(t.columns.Keys)
  }

  /** CV takes priority: a table carrying both signatures is CV. */
  lemma CvWinsOverDpv(names: set<string>)
    requires CvSignature + DpvSignature <= names
    ensures DetectFileType(names) == CV
  {
  }

  /** Headers outside the two signatures never change the technique. */
  lemma ExtraColumnsIgnored(names: set<string>, extra: set<string>)
    requires extra !! (CvSignature + DpvSignature)
    ensures DetectFileType(names + extra) == DetectFileType(names)
  {
    assert CvSignature <= names + extra <==> CvSignature <= names;
    assert DpvSignature <= names + extra <==> DpvSignature <= names;
  }

  /** Adding headers can only move a table towards CV: a CV table stays CV and
      a DPV table becomes either DPV or CV. */
  lemma MoreColumnsKeepTechnique(names: set<string>, more: set<string>)
    ensures DetectFileType(names) == CV ==> DetectFileType(names + more) == CV
    ensures DetectFileType(names) == DPV ==> DetectFileType(names + more) != Unknown
  {
  }

  /** The CV triple, the DPV pair, and a header set with neither. */
  lemma HeaderExamples()
    ensures DetectFileType({ScanColumn, PotentialColumn, CurrentColumn}) == CV
    ensures DetectFileType({BasePotentialColumn, DeltaCurrentColumn}) == DPV
    ensures DetectFileType({"Time (s)", PotentialColumn}) == Unknown
  {
  }
}

=== FILE: cv.dfy ===
/** Cyclic-voltammetry extraction (process_cv): unit conversion of the
    current column, scan selection, one series per selected scan, and the
    colour each series is drawn in. */
module Cv {
  import opened Results
  import opened Seqs
  import opened Tables
  import Plot
  import ScanRange
  import Text

  /** Messages shown to the user while a CV table is processed. */
  datatype Note = InvalidScanRange | NoDataForScan(file: string, scan: int)

  /** The row mask df['Scan'] == scan. */
  function RowsOfScan(scans: seq<int>, scan: int): (mask: seq<bool>)
    ensures |mask| == |scans|
    ensures forall i :: 0 <= i < |scans| ==> (mask[i] <==> scans[i] == scan)
  {
    seq(|scans|, i requires 0 <= i < |scans| => scans[i] == scan)
  }

  /** A Scan column whose values are integers: read as integers, or the empty
      text column pandas produces for a header-only export. */
  predicate IntegerScans(c: Column) {
    c.Integers? || (c.Texts? && |c.texts| == 0)
  }

  /** The scan number of every row. */
  function ScanValues(c: Column): (scans: seq<int>)
    requires IntegerScans(c)
    ensures |scans| == c.Length()
    ensures c.Integers? ==> scans == c.ints
  {
    if c.Integers? then c.ints else []
  }

  /** A table process_cv handles without raising: the three CV headers, a
      Scan column of integers and a current column that can be scaled. */
  predicate CvReady(t: Table) {
    && ScanColumn in t.columns && IntegerScans(t.columns[ScanColumn])
    && PotentialColumn in t.columns
    && CurrentColumn in t.columns && t.columns[CurrentColumn].Numeric()
  }

  /** The colour policy is total for these arguments: either a single file, or
      a file index that has an entry in file_colors. */
  predicate ColorIndexValid(numFiles: nat, fileIndex: nat) {
    numFiles == 1 || fileIndex < numFiles
  }

  /** What the scan loop produced: the series, the warnings for scans without
      rows, and how many colours have been drawn from the cycle so far. */
  datatype Emission = Emission(series: seq<Plot.Series>, notes: seq<Note>, drawn: nat)

  /** The loop over the selected scans, given the potential column (None
      when the table has none), the scaled current column and the Scan
      column. `drawn` is the palette cursor: the number of colours already
      taken from itertools.cycle. With one file each emitted series takes the
      next colour; with several, every series takes file_colors[fileIndex],
      the fileIndex-th colour of the cycle. Every selected scan yields either
      a series or a warning. */
  function EmitScans(potential: Option<Column>, current: Column, scans: seq<int>, selected: seq<int>,
                     filename: string, numFiles: nat, fileIndex: nat, palette: Plot.Palette,
                     drawn: nat): (r: Result<Emission, Error>)
    requires |scans| == current.Length()
    requires potential.Some? ==> potential.value.Length() == |scans|
    ensures r.Success? ==> |r.value.series| + |r.value.notes| == |selected|
    decreases |selected|
  {
    if |selected| == 0 then Success(Emission([], [], drawn))
    else
      var scan := selected[0];
      if scan !in scans then
        // scan_df.empty: warn and move on without drawing a colour
        match EmitScans(potential, current, scans, selected[1..], filename, numFiles, fileIndex, palette, drawn)
        case Failure(e) => Failure(e)
        case Success(rest) =>
          Success(Emission(rest.series, [NoDataForScan(filename, scan)] + rest.notes, rest.drawn))
      else if potential.None? then Failure(MissingColumn(PotentialColumn))
      else if !ColorIndexValid(numFiles, fileIndex) then Failure(ColorIndexOutOfRange(fileIndex))
      else
        var mask := RowsOfScan(scans, scan);
        var color := if numFiles == 1 then Plot.Drawn(palette, drawn) else Plot.Drawn(palette, fileIndex);
        var next := if numFiles == 1 then drawn + 1 else drawn;
        var series := Plot.Series(KeepRows(potential.value, mask), KeepRows(current, mask),
                                  Plot.ScanLegend(filename, scan), Some(color));
        match EmitScans(potential, current, scans, selected[1..], filename, numFiles, fileIndex, palette, next)
        case Failure(e) => Failure(e)
        case Success(rest) => Success(Emission([series] + rest.series, rest.notes, rest.drawn))
  }

  /** With one file the series take successive colours of the cycle starting
      at the cursor, and the cursor advances by one per series; with several
      files every series takes the colour of the file's position. */
  lemma {:induction false} EmitScansColors(potential: Option<Column>, current: Column, scans: seq<int>,
                                           selected: seq<int>, filename: string, numFiles: nat,
                                           fileIndex: nat, palette: Plot.Palette, drawn: nat)
    requires |scans| == current.Length()
    requires potential.Some? ==> potential.value.Length() == |scans|
    ensures var r := EmitScans(potential, current, scans, selected, filename, numFiles, fileIndex, palette, drawn);
      && (r.Success? && numFiles == 1 ==>
            && r.value.drawn == drawn + |r.value.series|
            && forall k :: 0 <= k < |r.value.series| ==>
                 r.value.series[k].color == Some(Plot.Drawn(palette, drawn + k)))
      && (r.Success? && numFiles != 1 ==>
            forall k :: 0 <= k < |r.value.series| ==>
              r.value.series[k].color == Some(Plot.Drawn(palette, fileIndex)))
    decreases |selected|
  {
    if |selected| > 0 {
      var next := if selected[0] in scans && numFiles == 1 then drawn + 1 else drawn;
      EmitScansColors(potential, current, scans, selected[1..], filename, numFiles, fileIndex, palette, next);
    }
  }

  /** When every selected scan occurs in the Scan column, the loop fails only
      on a missing potential column or a bad colour index, and otherwise
      yields one series per selected scan, in order, named after it and
      holding exactly its rows. */
  lemma {:induction false} EmitScansOfPresentScans(potential: Option<Column>, current: Column, scans: seq<int>,
                                                   selected: seq<int>, filename: string, numFiles: nat,
                                                   fileIndex: nat, palette: Plot.Palette, drawn: nat)
    requires |scans| == current.Length()
    requires potential.Some? ==> potential.value.Length() == |scans|
    requires forall k :: 0 <= k < |selected| ==> selected[k] in scans
    ensures var r := EmitScans(potential, current, scans, selected, filename, numFiles, fileIndex, palette, drawn);
      && (r.Success? <==> |selected| == 0 || (potential.Some? && ColorIndexValid(numFiles, fileIndex)))
      && (r.Success? ==>
            && |r.value.series| == |selected|
            && r.value.notes == []
            && forall k :: 0 <= k < |selected| ==>
                 && r.value.series[k].legend == Plot.ScanLegend(filename, selected[k])
                 && r.value.series[k].x == KeepRows(potential.value, RowsOfScan(scans, selected[k]))
                 && r.value.series[k].y == KeepRows(current, RowsOfScan(scans, selected[k])))
    decreases |selected|
  {
    if |selected| > 0 {
      var next := if numFiles == 1 then drawn + 1 else drawn;
      var tail := selected[1..];
      assert forall k :: 0 <= k < |tail| ==> tail[k] == selected[k + 1];
      EmitScansOfPresentScans(potential, current, scans, tail, filename, numFiles, fileIndex, palette, next);
    }
  }

  function ParseNotes(sel: ScanRange.Selection): seq<Note> {
    if sel.invalidFormat then [InvalidScanRange] else []
  }

  /** What process_cv leaves behind: the caller's table after the in-place
      conversion, the series of the figure and the messages shown. */
  datatype CvOutput = CvOutput(table: Table, series: seq<Plot.Series>, notes: seq<Note>)

  /** The table after `df[CurrentColumn] *= 1e6`. */
  function Converted(t: Table, scaled: Column): (r: Table)
    requires CurrentColumn in t.columns && scaled.Length() == t.height
    ensures r.columns.Keys == t.columns.Keys && r.height == t.height
    ensures r.columns[CurrentColumn] == scaled
    ensures forall name :: name in t.columns && name != CurrentColumn ==> r.columns[name] == t.columns[name]
  {
    Frame(t.columns[CurrentColumn := scaled], t.height)
  }

  /** The scans selected for a CV-ready table: the expression resolved
      against the distinct Scan values in order of first appearance. */
  function SelectedScans(t: Table, scanRange: string): ScanRange.Selection
    requires ScanColumn in t.columns && IntegerScans(t.columns[ScanColumn])
  {
    ScanRange.ParseScanRange(scanRange, Unique(ScanValues(t.columns[ScanColumn])))
  }

  /** Every selected scan occurs in the Scan column. */
  lemma SelectedScansArePresent(t: Table, scanRange: string)
    requires ScanColumn in t.columns && IntegerScans(t.columns[ScanColumn])
    ensures var sel := SelectedScans(t, scanRange).scans;
      forall k :: 0 <= k < |sel| ==> sel[k] in ScanValues(t.columns[ScanColumn])
  {
    var scans := ScanValues(t.columns[ScanColumn]);
    var sel := SelectedScans(t, scanRange).scans;
    forall k | 0 <= k < |sel| ensures sel[k] in scans {
      assert sel[k] in Unique(scans);
      assert sel[k] in Elems(Unique(scans));
    }
  }

  /** process_cv. The palette cursor starts after the numFiles colours taken
      for file_colors, so the first scan of a single file gets the second
      colour of the palette. */
  function ProcessCv(t: Table, filename: string, scanRange: string,
                     numFiles: nat, fileIndex: nat, palette: Plot.Palette): (r: Result<CvOutput, Error>)
    ensures r.Success? ==>
      && CurrentColumn in t.columns
      && r.value.table.columns.Keys == t.columns.Keys
      && Times(t.columns[CurrentColumn], MicroPerUnit) == Some(r.value.table.columns[CurrentColumn])
      && forall name :: name in t.columns && name != CurrentColumn ==>
           r.value.table.columns[name] == t.columns[name]
    ensures CvReady(t) && ColorIndexValid(numFiles, fileIndex) ==> r.Success?
    ensures CvReady(t) && r.Success? ==>
      var scans := ScanValues(t.columns[ScanColumn]);
      var sel := SelectedScans(t, scanRange);
      && |r.value.series| == |sel.scans|
      && r.value.notes == ParseNotes(sel)
      && forall k :: 0 <= k < |sel.scans| ==>
           && r.value.series[k].legend == Plot.ScanLegend(filename, sel.scans[k])
           && r.value.series[k].x == KeepRows(t.columns[PotentialColumn], RowsOfScan(scans, sel.scans[k]))
           && r.value.series[k].y == KeepRows(r.value.table.columns[CurrentColumn], RowsOfScan(scans, sel.scans[k]))
    ensures r.Success? && numFiles == 1 ==>
      forall k :: 0 <= k < |r.value.series| ==> r.value.series[k].color == Some(Plot.Drawn(palette, k + 1))
    ensures r.Success? && numFiles != 1 ==>
      forall k :: 0 <= k < |r.value.series| ==> r.value.series[k].color == Some(Plot.Drawn(palette, fileIndex))
  {
    if CurrentColumn !in t.columns then Failure(MissingColumn(CurrentColumn))
    else
      match Times(t.columns[CurrentColumn], MicroPerUnit)
      case None => Failure(NonNumericColumn(CurrentColumn))
      case Some(scaled) =>
        var table := Converted(t, scaled);
        if ScanColumn !in t.columns then
          // scans default to [1]; looking up df['Scan'] for a selected scan raises
          var sel := ScanRange.ParseScanRange(scanRange, [1]);
          if |sel.scans| > 0 then Failure(MissingColumn(ScanColumn))
          else Success(CvOutput(table, [], ParseNotes(sel)))
        else
          if !IntegerScans(t.columns[ScanColumn]) then Failure(ScanColumnNotInteger)
          else
            var scans := ScanValues(t.columns[ScanColumn]);
            var sel := SelectedScans(t, scanRange);
            SelectedScansArePresent(t, scanRange);
            var potential := if PotentialColumn in t.columns then Some(t.columns[PotentialColumn]) else None;
            EmitScansColors(potential, scaled, scans, sel.scans, filename, numFiles, fileIndex, palette, numFiles);
            EmitScansOfPresentScans(potential, scaled, scans, sel.scans, filename, numFiles, fileIndex, palette, numFiles);
            match EmitScans(potential, scaled, scans, sel.scans, filename, numFiles, fileIndex, palette, numFiles)
            case Failure(e) => Failure(e)
            case Success(em) => Success(CvOutput(table, em.series, ParseNotes(sel) + em.notes))
  }

  /** Each series holds exactly the rows of its scan, in row order: x is the
      potential and y the current times 10^6 of the rows whose Scan value is
      that scan, and there is at least one such row. */
  lemma SeriesHoldRowsOfTheirScan(t: Table, filename: string, scanRange: string,
                                  numFiles: nat, fileIndex: nat, palette: Plot.Palette, k: nat)
    requires CvReady(t) && ColorIndexValid(numFiles, fileIndex)
    requires k < |SelectedScans(t, scanRange).scans|
    ensures var out := ProcessCv(t, filename, scanRange, numFiles, fileIndex, palette).value;
      var scans := ScanValues(t.columns[ScanColumn]);
      var rows := TrueIndices(RowsOfScan(scans, SelectedScans(t, scanRange).scans[k]));
      && |rows| > 0
      && out.series[k].x == Rows(t.columns[PotentialColumn], rows)
      && Some(out.series[k].y) == Times(Rows(t.columns[CurrentColumn], rows), MicroPerUnit)
  {
    var out := ProcessCv(t, filename, scanRange, numFiles, fileIndex, palette).value;
    var scans := ScanValues(t.columns[ScanColumn]);
    var scan := SelectedScans(t, scanRange).scans[k];
    var mask := RowsOfScan(scans, scan);
    var rows := TrueIndices(mask);
    assert scan in Elems(Unique(scans));
    var i :| 0 <= i < |scans| && scans[i] == scan;
    assert i in rows;
    var current := t.columns[CurrentColumn];
    KeepRowsReadsSelectedRows(t.columns[PotentialColumn], mask);
    KeepRowsAfterTimes(current, mask, MicroPerUnit);
    KeepRowsReadsSelectedRows(current, mask);
  }

  /** With "all", every distinct scan of the table gets a series, in the order
      the scans first appear in the Scan column (not sorted). */
  lemma AllPlotsEveryScanInFirstAppearanceOrder(t: Table, filename: string, scanRange: string,
                                                numFiles: nat, fileIndex: nat, palette: Plot.Palette)
    requires CvReady(t) && ColorIndexValid(numFiles, fileIndex)
    requires Text.IsAllKeyword(scanRange)
    ensures var out := ProcessCv(t, filename, scanRange, numFiles, fileIndex, palette).value;
      var scans := ScanValues(t.columns[ScanColumn]);
      var u := Unique(scans);
      && |out.series| == |u|
      && (forall x :: x in scans <==> x in u)
      && (forall k :: 0 <= k < |u| ==> out.series[k].legend == Plot.ScanLegend(filename, u[k]))
      && AppearanceOrdered(u, scans)
  {
    var scans := ScanValues(t.columns[ScanColumn]);
    var u := Unique(scans);
    assert SelectedScans(t, scanRange).scans == u;
    UniqueKeepsFirstAppearanceOrder(scans);
    assert forall x :: x in scans <==> x in Elems(scans);
    assert forall x :: x in u <==> x in Elems(u);
  }

  /** Any expression other than "all" plots its scans in ascending order,
      each at most once. */
  lemma SeriesInAscendingScanOrder(t: Table, filename: string, scanRange: string,
                                   numFiles: nat, fileIndex: nat, palette: Plot.Palette)
    requires CvReady(t) && ColorIndexValid(numFiles, fileIndex)
    requires !Text.IsAllKeyword(scanRange)
    ensures var out := ProcessCv(t, filename, scanRange, numFiles, fileIndex, palette).value;
      forall i, j :: 0 <= i < j < |out.series| ==>
        && out.series[i].legend.ScanLegend? && out.series[j].legend.ScanLegend?
        && out.series[i].legend.scan < out.series[j].legend.scan
  {
  }

  /** With a single file the cursor starts after the one colour taken for
      file_colors, so the first scan is drawn in the palette's second colour. */
  lemma SingleFileFirstScanGetsSecondColor(t: Table, filename: string, scanRange: string, palette: Plot.Palette)
    requires |palette| > 1
    requires ProcessCv(t, filename, scanRange, 1, 0, palette).Success?
    requires |ProcessCv(t, filename, scanRange, 1, 0, palette).value.series| > 0
    ensures ProcessCv(t, filename, scanRange, 1, 0, palette).value.series[0].color == Some(palette[1])
  {
  }

  /** With a single file, scans fewer than a palette length apart get
      different colours, provided the palette's colours are distinct. */
  lemma SingleFileScansGetDistinctColors(t: Table, filename: string, scanRange: string,
                                         palette: Plot.Palette, out: CvOutput, i: nat, j: nat)
    requires Distinct(palette)
    requires ProcessCv(t, filename, scanRange, 1, 0, palette) == Success(out)
    requires i < j < |out.series| && j - i < |palette|
    ensures out.series[i].color != out.series[j].color
  {
    var colors := seq(|out.series|, k requires 0 <= k < |out.series| => out.series[k].color);
    Plot.SuccessiveDrawsDiffer(palette, colors, 1, i, j);
  }

  /** The conversion works in place on the caller's table and is not
      idempotent: processing the converted table again scales the current by
      10^12 overall. */
  lemma ProcessingTwiceScalesTwice(t: Table, filename: string, scanRange: string,
                                   numFiles: nat, fileIndex: nat, palette: Plot.Palette)
    requires CvReady(t) && ColorIndexValid(numFiles, fileIndex)
    ensures var once := ProcessCv(t, filename, scanRange, numFiles, fileIndex, palette).value.table;
      && ProcessCv(once, filename, scanRange, numFiles, fileIndex, palette).Success?
      && var twice := ProcessCv(once, filename, scanRange, numFiles, fileIndex, palette).value.table;
         Some(twice.columns[CurrentColumn]) == Times(t.columns[CurrentColumn], MicroPerUnit * MicroPerUnit)
  {
    var once := ProcessCv(t, filename, scanRange, numFiles, fileIndex, palette).value.table;
    TimesTwice(t.columns[CurrentColumn]);
    assert CvReady(once);
  }

  /** A table with a non-zero current comes back changed. */
  lemma ProcessingChangesNonZeroCurrent(t: Table, filename: string, scanRange: string,
                                        numFiles: nat, fileIndex: nat, palette: Plot.Palette, i: nat)
    requires CurrentColumn in t.columns && !t.columns[CurrentColumn].Texts? && i < t.height
    requires ValueAt(t.columns[CurrentColumn], i) != 0.0
    ensures var r := ProcessCv(t, filename, scanRange, numFiles, fileIndex, palette);
      r.Success? ==> r.value.table != t
  {
    TimesChangesNonZero(t.columns[CurrentColumn], i);
  }
}

=== FILE: dpv.dfy ===
/** Differential-pulse extraction (process_dpv): the delta current is
    converted to microamperes and the whole table becomes one series named
    after the file. */
module Dpv {
  import opened Results
  import opened Tables
  import Plot

  /** A table process_dpv handles without raising. */
  predicate DpvReady(t: Table) {
    && BasePotentialColumn in t.columns
    && DeltaCurrentColumn in t.columns && t.columns[DeltaCurrentColumn].Numeric()
  }

  /** The caller's table after the in-place conversion and the one series. */
  datatype DpvOutput = DpvOutput(table: Table, series: Plot.Series)

  function ProcessDpv(t: Table, filename: string): (r: Result<DpvOutput, Error>)
    ensures DpvReady(t) <==> r.Success?
    ensures r.Success? ==>
      && r.value.series.legend == Plot.FileLegend(filename)
      && r.value.series.color == None
      && r.value.series.x == t.columns[BasePotentialColumn]
      && Times(t.columns[DeltaCurrentColumn], MicroPerUnit) == Some(r.value.series.y)
      && r.value.table.columns.Keys == t.columns.Keys
      && r.value.table.columns[DeltaCurrentColumn] == r.value.series.y
      && forall name :: name in t.columns && name != DeltaCurrentColumn ==>
           r.value.table.columns[name] == t.columns[name]
    ensures !DpvReady(t) ==> r == Failure(
      if DeltaCurrentColumn !in t.columns then MissingColumn(DeltaCurrentColumn)
      else if !t.columns[DeltaCurrentColumn].Numeric() then NonNumericColumn(DeltaCurrentColumn)
      else MissingColumn(BasePotentialColumn))
  {
    if DeltaCurrentColumn !in t.columns then Failure(MissingColumn(DeltaCurrentColumn))
    else
      match Times(t.columns[DeltaCurrentColumn], MicroPerUnit)
      case None => Failure(NonNumericColumn(DeltaCurrentColumn))
      case Some(scaled) =>
        var table: Table := Frame(t.columns[DeltaCurrentColumn := scaled], t.height);
        if BasePotentialColumn !in t.columns then Failure(MissingColumn(BasePotentialColumn))
        else Success(DpvOutput(table, Plot.Series(t.columns[BasePotentialColumn], scaled, Plot.FileLegend(filename), None)))
  }

  /** Every delta-current value of the series is the table's value times
      10^6, row for row; a value of 1 A becomes 1,000,000 uA. */
  lemma DeltaCurrentInMicroamperes(t: Table, filename: string, i: nat)
    requires DpvReady(t) && !t.columns[DeltaCurrentColumn].Texts? && i < t.height
    ensures var y := ProcessDpv(t, filename).value.series.y;
      && y.Reals? && |y.reals| == t.height
      && y.reals[i] == ValueAt(t.columns[DeltaCurrentColumn], i) * 1000000.0
      && (ValueAt(t.columns[DeltaCurrentColumn], i) == 1.0 ==> y.reals[i] == 1000000.0)
  {
  }
}

=== FILE: numerals.dfy ===
/** Decimal integers as text: Python's int(str) for base 10 and the decimal
    rendering used when a scan number is put into a label. */
module Numerals {
  import opened Results
  import Text

  predicate IsDigit(c: char) {
    '0' <= c <= '9'
  }

  function DigitValue(c: char): nat
    requires IsDigit(c)
  {
    c as int - '0' as int
  }

  function DigitChar(d: nat): (c: char)
    requires d < 10
    ensures IsDigit(c) && DigitValue(c) == d
  {
    ('0' as int + d) as char
  }

  /** Whitespace int() skips around the literal: ASCII tab through carriage
      return and space, plus every non-ASCII character str.isspace accepts.
      Unlike str.strip(), int() does not skip the ASCII separators 0x1C-0x1F. */
  predicate IsIntSpace(c: char) {
    Text.IsSpace(c) && !(28 <= c as int <= 31)
  }

  /** Digits with single underscores allowed between two digits ("1_000"). */
  predicate WellGrouped(d: string) {
    && |d| > 0
    && IsDigit(d[0])
    && IsDigit(d[|d| - 1])
    && (forall i :: 0 <= i < |d| ==> IsDigit(d[i]) || d[i] == '_')
    && (forall i :: 0 <= i < |d| - 1 ==> d[i] != '_' || d[i + 1] != '_')
  }

  /** The number written by the digits of `d`, underscores ignored. */
  function GroupedValue(d: string): nat
    requires forall i :: 0 <= i < |d| ==> IsDigit(d[i]) || d[i] == '_'
  {
    if |d| == 0 then 0
    else
      var init := d[..|d| - 1];
      var last := d[|d| - 1];
      if last == '_' then GroupedValue(init) else 10 * GroupedValue(init) + DigitValue(last)
  }

  /** `t` without the whitespace int() skips around the literal. */
  function Unpadded(t: string): string {
    Text.StripBy(t, IsIntSpace)
  }

  /** The literal starts with a sign. */
  predicate Signed(u: string) {
    |u| > 0 && (u[0] == '+' || u[0] == '-')
  }

  /** The literal after its sign. */
  function Unsigned(u: string): string {
    if Signed(u) then u[1..] else u
  }

  /** Python's int(t) with base 10: surrounding whitespace, an optional sign,
      then grouped digits; anything else raises ValueError (None here). */
  function ParseInt(t: string): (r: Option<int>)
    ensures r.Some? ==> exists i :: 0 <= i < |t| && IsDigit(t[i])
  {
    var u := Unpadded(t);
    var body := Unsigned(u);
    if !WellGrouped(body) then None
    else
      var n: int := GroupedValue(body);
      assert IsDigit(t[Text.LeadingRun(t, IsIntSpace) + (if Signed(u) then 1 else 0)]);
      Some(if Signed(u) && u[0] == '-' then -n else n)
  }

  /** Without a minus sign in the text, int() reads a non-negative number. */
  lemma ParseIntWithoutMinus(t: string)
    requires '-' !in t
    ensures ParseInt(t).Some? ==> ParseInt(t).value >= 0
  {
    var u := Unpadded(t);
    if |u| > 0 {
      assert u[0] == t[Text.LeadingRun(t, IsIntSpace)];
    }
  }

  /** Decimal digits of a natural number, without leading zeros. */
  function Decimal(n: nat): (s: string)
    ensures |s| > 0
    ensures forall i :: 0 <= i < |s| ==> IsDigit(s[i])
  {
    if n < 10 then [DigitChar(n)] else Decimal(n / 10) + [DigitChar(n % 10)]
  }

  /** Python's str(n) for an integer. */
  function IntToString(n: int): string {
    if n < 0 then "-" + Decimal(-n) else Decimal(n)
  }

  lemma {:induction false} DecimalValue(n: nat)
    ensures WellGrouped(Decimal(n))
    ensures GroupedValue(Decimal(n)) == n
  {
    var d := Decimal(n);
    if n >= 10 {
      DecimalValue(n / 10);
      assert d[..|d| - 1] == Decimal(n / 10);
    }
  }

  /** int() reads back what str() writes: parsing the decimal rendering of any
      integer gives that integer. */
  lemma {:induction false} ParseIntOfIntToString(n: int)
    ensures ParseInt(IntToString(n)) == Some(n)
  {
    var s := IntToString(n);
    var m := if n < 0 then -n else n;
    DecimalValue(m);
    assert !IsIntSpace(s[0]) && !IsIntSpace(s[|s| - 1]);
    assert Unpadded(s) == s by {
      Text.StripByKeepsTrimmed(s, IsIntSpace);
    }
    assert Signed(s) <==> n < 0;
    assert Unsigned(s) == Decimal(m) by {
      if n < 0 {
        assert s[1..] == Decimal(m);
      }
    }
  }

  /** A plain decimal numeral parses to its value. */
  lemma ParseIntOfDecimal(n: nat)
    ensures ParseInt(Decimal(n)) == Some(n)
  {
    ParseIntOfIntToString(n);
  }

  /** The digits of `d`, underscores dropped. */
  function Digits(d: string): (r: string)
    requires forall i :: 0 <= i < |d| ==> IsDigit(d[i]) || d[i] == '_'
    ensures forall i :: 0 <= i < |r| ==> IsDigit(r[i])
  {
    if |d| == 0 then []
    else
      var init := d[..|d| - 1];
      var last := d[|d| - 1];
      if last == '_' then Digits(init) else Digits(init) + [last]
  }

  /** A digit string without its leading zeros, keeping at least one digit. */
  function DropZeros(d: string): (r: string)
    ensures |d| > 0 ==> |r| > 0 && (|r| == 1 || r[0] != '0')
    ensures |r| <= |d| && r == d[|d| - |r|..]
  {
    if |d| > 1 && d[0] == '0' then DropZeros(d[1..]) else d
  }

  /** The literal int() accepts, written as str() writes numbers: no
      surrounding whitespace, no '+', no underscores, no leading zeros and no
      minus sign on zero. */
  function Canonical(t: string): string
    requires WellGrouped(Unsigned(Unpadded(t)))
  {
    var u := Unpadded(t);
    var magnitude := DropZeros(Digits(Unsigned(u)));
    if Signed(u) && u[0] == '-' && magnitude != "0" then "-" + magnitude else magnitude
  }

  lemma {:induction false} DigitsKeepValue(d: string)
    requires forall i :: 0 <= i < |d| ==> IsDigit(d[i]) || d[i] == '_'
    ensures GroupedValue(Digits(d)) == GroupedValue(d)
  {
    if |d| > 0 {
      var init := d[..|d| - 1];
      DigitsKeepValue(init);
      if d[|d| - 1] != '_' {
        assert (Digits(init) + [d[|d| - 1]])[..|Digits(init)|] == Digits(init);
      }
    }
  }

  lemma {:induction false} LeadingZeroKeepsValue(d: string)
    requires forall i :: 0 <= i < |d| ==> IsDigit(d[i])
    ensures GroupedValue(['0'] + d) == GroupedValue(d)
  {
    if |d| > 0 {
      var init := d[..|d| - 1];
      assert (['0'] + d)[..|d|] == ['0'] + init;
      LeadingZeroKeepsValue(init);
    } else {
      assert (['0'] + d)[..0] == [];
    }
  }

  lemma {:induction false} DropZerosKeepsValue(d: string)
    requires forall i :: 0 <= i < |d| ==> IsDigit(d[i])
    ensures GroupedValue(DropZeros(d)) == GroupedValue(d)
  {
    if |d| > 1 && d[0] == '0' {
      DropZerosKeepsValue(d[1..]);
      assert d == ['0'] + d[1..];
      LeadingZeroKeepsValue(d[1..]);
    }
  }

  lemma {:induction false} NonZeroLeadIsPositive(d: string)
    requires |d| > 0 && d[0] != '0'
    requires forall i :: 0 <= i < |d| ==> IsDigit(d[i])
    ensures GroupedValue(d) > 0
  {
    if |d| > 1 {
      NonZeroLeadIsPositive(d[..|d| - 1]);
    } else {
      assert d[..0] == [];
    }
  }

  /** str() writes back a digit string without leading zeros. */
  lemma {:induction false} DecimalOfValue(d: string)
    requires |d| > 0 && (|d| == 1 || d[0] != '0')
    requires forall i :: 0 <= i < |d| ==> IsDigit(d[i])
    ensures Decimal(GroupedValue(d)) == d
  {
    var init := d[..|d| - 1];
    var last := d[|d| - 1];
    var v := GroupedValue(d);
    if |d| == 1 {
      assert init == [] && GroupedValue(init) == 0;
      assert v == DigitValue(last) < 10;
      assert DigitChar(DigitValue(last)) == last;
      assert d == [last];
    } else {
      DecimalOfValue(init);
      NonZeroLeadIsPositive(init);
      assert v == 10 * GroupedValue(init) + DigitValue(last);
      assert v / 10 == GroupedValue(init) && v % 10 == DigitValue(last);
      assert Decimal(v) == init + [last];
    }
  }

  /** The digits of a well-grouped literal, without underscores and leading
      zeros, are str() of its value. */
  lemma MagnitudeIsDecimal(body: string)
    requires WellGrouped(body)
    ensures DropZeros(Digits(body)) == Decimal(GroupedValue(body))
  {
    var digits := Digits(body);
    assert digits == Digits(body[..|body| - 1]) + [body[|body| - 1]];
    DigitsKeepValue(body);
    DropZerosKeepsValue(digits);
    DecimalOfValue(DropZeros(digits));
  }

  /** When int(t) == n, str(n) is the canonical form of t: int() loses only
      the whitespace, the '+', the underscores, the leading zeros and the
      sign of a zero. */
  lemma {:induction false} ParseIntCanonical(t: string, n: int)
    requires ParseInt(t) == Some(n)
    ensures WellGrouped(Unsigned(Unpadded(t)))
    ensures Canonical(t) == IntToString(n)
  {
    var v := ParseIntReads(t);
    CanonicalIsIntToString(t, v);
  }

  /** The canonical form of a literal is str() of its signed value. */
  lemma CanonicalIsIntToString(t: string, v: nat)
    requires WellGrouped(Unsigned(Unpadded(t)))
    requires v == GroupedValue(Unsigned(Unpadded(t)))
    ensures var u := Unpadded(t);
      Canonical(t) == IntToString(if Signed(u) && u[0] == '-' then -(v as int) else v)
  {
    var u := Unpadded(t);
    var magnitude := DropZeros(Digits(Unsigned(u)));
    assert magnitude == Decimal(v) by {
      MagnitudeIsDecimal(Unsigned(u));
    }
    if v != 0 {
      assert magnitude != "0" by {
        DecimalValue(v);
      }
    }
  }

  /** str() never writes two integers the same way. */
  lemma IntToStringInjective(m: int, n: int)
    requires IntToString(m) == IntToString(n)
    ensures m == n
  {
    ParseIntOfIntToString(m);
    ParseIntOfIntToString(n);
  }

  /** The converse of ParseIntCanonical: int() accepts every well-grouped
      literal, and reads n from it when its canonical form is str(n). */
  lemma CanonicalParses(t: string, n: int)
    requires WellGrouped(Unsigned(Unpadded(t)))
    requires Canonical(t) == IntToString(n)
    ensures ParseInt(t) == Some(n)
  {
    assert ParseInt(t).Some?;
    var m := ParseInt(t).value;
    ParseIntCanonical(t, m);
    IntToStringInjective(m, n);
  }

  /** int() reads "+0_07" as 7. */
  lemma SignedGroupedExample()
    ensures ParseInt("+0_07") == Some(7)
  {
    var t := "+0_07";
    assert Unpadded(t) == t by {
      assert !IsIntSpace(t[0]) && !IsIntSpace(t[|t| - 1]);
      Text.StripByKeepsTrimmed(t, IsIntSpace);
    }
    assert Signed(t) && Unsigned(t) == "0_07";
    GroupedExample();
  }

  lemma GroupedExample()
    ensures WellGrouped("0_07") && GroupedValue("0_07") == 7
  {
    assert "0_07"[..3] == "0_0";
    assert "0_0"[..2] == "0_";
    assert "0_"[..1] == "0";
    assert "0"[..0] == [];
  }

  /** What a successful int() call read: the grouped digits after the sign,
      negated after a '-'. */
  lemma ParseIntReads(t: string) returns (v: int)
    requires ParseInt(t).Some?
    ensures WellGrouped(Unsigned(Unpadded(t)))
    ensures v == GroupedValue(Unsigned(Unpadded(t)))
    ensures var u := Unpadded(t);
      ParseInt(t).value == if Signed(u) && u[0] == '-' then -v else v
  {
    v := GroupedValue(Unsigned(Unpadded(t)));
  }

  /** The empty string is not a number. */
  lemma ParseIntOfEmpty()
    ensures ParseInt("") == None
  {
  }
}

=== FILE: plot.dfy ===
/** The plotted output: labelled series and the colours drawn for them from
    the cyclic default palette. */
module Plot {
  import opened Results
  import opened Seqs
  import Tables
  import Numerals

  type Color = string

  /** The chart library's default colour sequence; it is never empty. */
  type Palette = p: seq<Color> | |p| > 0 witness ["#636efa"]

  /** The colour returned by the k-th call (0-based) of next() on
      itertools.cycle(palette). */
  function Drawn(palette: Palette, k: nat): (c: Color)
    ensures c in palette
    ensures k < |palette| ==> c == palette[k]
    decreases k
  {
    if k < |palette| then palette[k] else Drawn(palette, k - |palette|)
  }

  /** The legend name of a trace: one scan of a CV file, or a whole DPV file. */
  datatype Legend = ScanLegend(file: string, scan: int) | FileLegend(file: string) {
    /** The text shown: "<file> - Scan <scan>", or the file name alone. */
    function Rendered(): string {
      match this
      case ScanLegend(file, scan) => file + " - Scan " + Numerals.IntToString(scan)
      case FileLegend(file) => file
    }
  }

  /** Different scans of one file are told apart by their legend text. */
  lemma ScanLegendDeterminesScan(file: string, a: int, b: int)
    requires ScanLegend(file, a).Rendered() == ScanLegend(file, b).Rendered()
    ensures a == b
  {
    var prefix := file + " - Scan ";
    assert ScanLegend(file, a).Rendered()[|prefix|..] == Numerals.IntToString(a);
    assert ScanLegend(file, b).Rendered()[|prefix|..] == Numerals.IntToString(b);
    Numerals.ParseIntOfIntToString(a);
    Numerals.ParseIntOfIntToString(b);
  }

  /** One line of a figure: x and y values, legend name and, when process_cv
      sets one, its line colour. */
  datatype Series = Series(x: Tables.Column, y: Tables.Column, legend: Legend, color: Option<Color>)

  /** Fewer than a full turn apart, two draws from a palette of distinct
      colours give distinct colours. */
  lemma {:induction false} DrawsWithinOneTurnDiffer(palette: Palette, i: nat, j: nat)
    requires Distinct(palette)
    requires i < j < i + |palette|
    ensures Drawn(palette, i) != Drawn(palette, j)
    decreases i
  {
    var p := |palette|;
    if i >= p {
      DrawsWithinOneTurnDiffer(palette, i - p, j - p);
    } else if j >= p {
      assert Drawn(palette, j) == Drawn(palette, j - p) == palette[j - p];
      assert j - p < i;
    }
  }

  /** Draws a full turn apart give the same colour: the palette wraps. */
  lemma DrawsWrapAround(palette: Palette, k: nat)
    ensures Drawn(palette, k + |palette|) == Drawn(palette, k)
  {
  }

  /** Colours taken one after another from the cycle differ as long as they
      are fewer than a palette length apart and the palette's colours are
      distinct. */
  lemma SuccessiveDrawsDiffer(palette: Palette, colors: seq<Option<Color>>, start: nat, i: nat, j: nat)
    requires Distinct(palette)
    requires forall k :: 0 <= k < |colors| ==> colors[k] == Some(Drawn(palette, start + k))
    requires i < j < |colors| && j - i < |palette|
    ensures colors[i] != colors[j]
  {
    DrawsWithinOneTurnDiffer(palette, start + i, start + j);
  }
}

=== FILE: results.dfy ===
/** Failure-carrying values used across the model: an optional value and a
    success-or-error result standing in for a raised Python exception. */
module Results {

  datatype Option<+T> = None | Some(value: T)

  datatype Result<+T, +E> = Success(value: T) | Failure(error: E)
}

=== FILE: scan_range.dfy ===
/** The scan-range expression typed by the user ("1-3,5" or "all") and its
    resolution against the scans a file actually contains (parse_scan_range). */
module ScanRange {
  import opened Results
  import opened Seqs
  import Text
  import Numerals

  /** What one comma-separated piece asks for. */
  datatype Token = Single(scan: int) | Span(first: int, last: int) | Malformed

  /** Reads one piece of the expression: after str.strip(), a piece holding a
      '-' must split on it into exactly two integers; any other piece must be one
      integer. A piece that fails either way is Malformed (int() or the tuple
      unpacking raising ValueError). */
  function ParseToken(piece: string): (r: Token)
    // a '-' always sends the piece down the range branch, so no scan is negative
    ensures r.Single? ==> r.scan >= 0
    ensures r.Span? ==> r.first >= 0 && r.last >= 0
    // the two-name unpacking succeeds only on exactly one dash
    ensures r.Span? ==> Text.Count(Text.Strip(piece), '-') == 1
  {
    var part := Text.Strip(piece);
    if '-' in part then
      var ends := Text.Split(part, '-');
      if |ends| != 2 then Malformed
      else
        Numerals.ParseIntWithoutMinus(ends[0]);
        Numerals.ParseIntWithoutMinus(ends[1]);
        match (Numerals.ParseInt(ends[0]), Numerals.ParseInt(ends[1]))
        case (Some(a), Some(b)) => Span(a, b)
        case _ => Malformed
    else
      Numerals.ParseIntWithoutMinus(part);
      match Numerals.ParseInt(part)
      case Some(n) => Single(n)
      case None => Malformed
  }

  /** The scans a token asks for: range(first, last + 1) for a span, which is
      empty when first > last. */
  function Contribution(t: Token): (r: set<int>)
    ensures t.Single? ==> r == {t.scan}
    ensures t.Span? ==> forall x :: x in r <==> t.first <= x <= t.last
    ensures t.Malformed? ==> r == {}
  {
    match t
    case Single(n) => {n}
    case Span(a, b) => Interval(a, b)
    case Malformed => {}
  }

  /** The integers from `first` to `last` inclusive: Python's
      range(first, last + 1) as a set. */
  function Interval(first: int, last: int): (r: set<int>)
    ensures forall x :: x in r <==> first <= x <= last
    decreases last - first
  {
    if first > last then {} else {first} + Interval(first + 1, last)
  }

  /** The outcome of the token loop: the scans collected so far and whether a
      ValueError stopped the loop. */
  datatype Request = Request(scans: set<int>, failed: bool)

  /** The token each piece reads as, in order. */
  function Tokens(pieces: seq<string>): (ts: seq<Token>)
    ensures |ts| == |pieces|
    ensures forall i :: 0 <= i < |pieces| ==> ts[i] == ParseToken(pieces[i])
  {
    seq(|pieces|, i requires 0 <= i < |pieces| => ParseToken(pieces[i]))
  }

  /** The token loop inside the try block: tokens are read in order and their
      contributions collected, and the first malformed token ends the loop,
      keeping what earlier tokens contributed. */
  function Requested(tokens: seq<Token>): Request {
    if |tokens| == 0 then Request({}, false)
    else if tokens[0].Malformed? then Request({}, true)
    else
      var rest := Requested(tokens[1..]);
      Request(Contribution(tokens[0]) + rest.scans, rest.failed)
  }

  /** Index of the first malformed token, or the number of tokens if none is. */
  function FirstMalformed(tokens: seq<Token>): (k: nat)
    ensures k <= |tokens|
    ensures forall i :: 0 <= i < k ==> !tokens[i].Malformed?
    ensures k < |tokens| ==> tokens[k].Malformed?
  {
    if |tokens| == 0 || tokens[0].Malformed? then 0
    else 1 + FirstMalformed(tokens[1..])
  }

  /** The loop stops at the first malformed token: the error is raised exactly
      when some token is malformed, and the collected scans are the union of
      the contributions of the tokens before the first malformed one. */
  lemma {:induction false} RequestedUpToFirstMalformed(tokens: seq<Token>, x: int)
    ensures Requested(tokens).failed <==> FirstMalformed(tokens) < |tokens|
    ensures x in Requested(tokens).scans <==>
      exists i :: 0 <= i < FirstMalformed(tokens) && x in Contribution(tokens[i])
  {
    if |tokens| > 0 && !tokens[0].Malformed? {
      var tail := tokens[1..];
      RequestedUpToFirstMalformed(tail, x);
      var k := FirstMalformed(tokens);
      if x in Requested(tokens).scans {
        if x !in Contribution(tokens[0]) {
          var i :| 0 <= i < FirstMalformed(tail) && x in Contribution(tail[i]);
          assert tail[i] == tokens[i + 1];
        }
      }
      if exists i :: 0 <= i < k && x in Contribution(tokens[i]) {
        var i :| 0 <= i < k && x in Contribution(tokens[i]);
        if i > 0 {
          assert tail[i - 1] == tokens[i];
        }
      }
    }
  }

  /** The scans chosen for one file and whether the "invalid scan range format"
      error was reported. */
  datatype Selection = Selection(scans: seq<int>, invalidFormat: bool)

  /** parse_scan_range: the keyword "all" (any capitalisation) returns the
      available scans as given; otherwise the requested scans that are
      available, ascending and without repetition. */
  function ParseScanRange(expr: string, available: seq<int>): (r: Selection)
    ensures Text.IsAllKeyword(expr) ==> r == Selection(available, false)
    ensures !Text.IsAllKeyword(expr) ==> StrictlyAscending(r.scans)
    ensures !Text.IsAllKeyword(expr) ==>
      forall x :: x in r.scans <==> x in available && x in Requested(Tokens(Text.Split(expr, ','))).scans
    ensures !Text.IsAllKeyword(expr) ==>
      (r.invalidFormat <==> exists i :: 0 <= i < |Text.Split(expr, ',')| && ParseToken(Text.Split(expr, ',')[i]).Malformed?)
  {
    if Text.IsAllKeyword(expr) then Selection(available, false)
    else
      var pieces := Text.Split(expr, ',');
      var tokens := Tokens(pieces);
      var req := Requested(tokens);
      var scans := SortDistinct(Filter(available, req.scans));
      assert forall x :: x in scans <==> x in Elems(scans);
      assert forall x :: x in available <==> x in Elems(available);
      RequestedUpToFirstMalformed(tokens, 0);
      Selection(scans, req.failed)
  }

  /** Any expression other than "all" selects only non-negative scans: a
      negative number can only be written with a '-', which makes the piece
      a range. */
  lemma {:induction false} SelectedScansAreNonNegative(expr: string, available: seq<int>)
    requires !Text.IsAllKeyword(expr)
    ensures var r := ParseScanRange(expr, available);
      forall k :: 0 <= k < |r.scans| ==> r.scans[k] >= 0
  {
    var r := ParseScanRange(expr, available);
    var tokens := Tokens(Text.Split(expr, ','));
    forall k | 0 <= k < |r.scans| ensures r.scans[k] >= 0 {
      assert r.scans[k] in Requested(tokens).scans;
      RequestedIsNonNegative(tokens, r.scans[k]);
    }
  }

  /** The loop collects no negative scan from tokens read off the text. */
  lemma RequestedIsNonNegative(tokens: seq<Token>, x: int)
    requires forall i :: 0 <= i < |tokens| ==> !tokens[i].Single? || tokens[i].scan >= 0
    requires forall i :: 0 <= i < |tokens| ==> !tokens[i].Span? || tokens[i].first >= 0
    requires x in Requested(tokens).scans
    ensures x >= 0
  {
    RequestedUpToFirstMalformed(tokens, x);
    var i :| 0 <= i < FirstMalformed(tokens) && x in Contribution(tokens[i]);
  }

  /** Any strictly ascending list of exactly the requested, available scans is
      what the parser returns: the result is sorted(set(requested) & set(available)). */
  lemma SelectionIsSortedIntersection(expr: string, available: seq<int>, expected: seq<int>)
    requires !Text.IsAllKeyword(expr)
    requires StrictlyAscending(expected)
    requires forall x :: x in expected <==> x in available && x in Requested(Tokens(Text.Split(expr, ','))).scans
    ensures ParseScanRange(expr, available).scans == expected
  {
    var r := ParseScanRange(expr, available).scans;
    forall x
      ensures x in Elems(r) <==> x in Elems(expected)
    {
      assert x in Elems(r) <==> x in r;
      assert x in Elems(expected) <==> x in expected;
    }
    AscendingDeterminedByElems(r, expected);
  }

  /** A plain decimal numeral is a single-scan token. */
  lemma SingleTokenOfDecimal(n: nat)
    ensures ParseToken(Numerals.Decimal(n)) == Single(n)
    ensures Contribution(ParseToken(Numerals.Decimal(n))) == {n}
  {
    var d := Numerals.Decimal(n);
    Text.StripByKeepsTrimmed(d, Text.IsSpace);
    Numerals.ParseIntOfDecimal(n);
  }

  /** Text made of digits around one dash is left alone by strip() and
      splits on the dash into its two numerals. */
  lemma DashedNumeralsSplit(da: string, db: string)
    requires |da| > 0 && |db| > 0
    requires forall i :: 0 <= i < |da| ==> Numerals.IsDigit(da[i])
    requires forall i :: 0 <= i < |db| ==> Numerals.IsDigit(db[i])
    ensures Text.Strip(da + "-" + db) == da + "-" + db
    ensures '-' in da + "-" + db
    ensures Text.Split(da + "-" + db, '-') == [da, db]
  {
    var w := da + "-" + db;
    assert w[0] == da[0] && w[|w| - 1] == db[|db| - 1];
    Text.StripByKeepsTrimmed(w, Text.IsSpace);
    assert w[|da|] == '-';
    assert Text.Join([da, db], '-') == w by {
      assert [da, db][1..] == [db];
    }
    assert '-' !in da by {
      forall i | 0 <= i < |da| ensures da[i] != '-' {
        assert Numerals.IsDigit(da[i]);
      }
    }
    assert '-' !in db by {
      forall i | 0 <= i < |db| ensures db[i] != '-' {
        assert Numerals.IsDigit(db[i]);
      }
    }
    Text.SplitJoin([da, db], '-');
  }

  /** Two numerals joined by a dash read as the span between their values. */
  lemma SpanTokenOfNumerals(da: string, db: string, a: int, b: int)
    requires |da| > 0 && |db| > 0
    requires forall i :: 0 <= i < |da| ==> Numerals.IsDigit(da[i])
    requires forall i :: 0 <= i < |db| ==> Numerals.IsDigit(db[i])
    requires Numerals.ParseInt(da) == Some(a) && Numerals.ParseInt(db) == Some(b)
    ensures ParseToken(da + "-" + db) == Span(a, b)
  {
    DashedNumeralsSplit(da, db);
  }

  /** "a-b" is the span token from a to b; it contributes exactly a..b, which
      is empty when a > b. */
  lemma SpanTokenOfDecimals(a: nat, b: nat)
    ensures ParseToken(Numerals.Decimal(a) + "-" + Numerals.Decimal(b)) == Span(a, b)
    ensures forall x :: x in Contribution(Span(a, b)) <==> a <= x <= b
    ensures a > b ==> Contribution(Span(a, b)) == {}
  {
    Numerals.ParseIntOfDecimal(a);
    Numerals.ParseIntOfDecimal(b);
    SpanTokenOfNumerals(Numerals.Decimal(a), Numerals.Decimal(b), a, b);
    if a > b {
      assert forall x :: x !in Contribution(Span(a, b));
    }
  }

  /** A piece whose stripped text starts with '-' ("-3", "-1-2") is malformed:
      its first end is empty. */
  lemma LeadingDashIsMalformed(piece: string)
    requires |Text.Strip(piece)| > 0 && Text.Strip(piece)[0] == '-'
    ensures ParseToken(piece).Malformed?
  {
    var part := Text.Strip(piece);
    Text.LeadingSeparatorGivesEmptyPiece(part, '-');
    Numerals.ParseIntOfEmpty();
  }

  /** A piece holding two or more dashes ("1--3", "1-2-3") is malformed: it
      does not split into exactly two ends. */
  lemma TwoDashesAreMalformed(piece: string)
    requires Text.Count(Text.Strip(piece), '-') >= 2
    ensures ParseToken(piece).Malformed?
  {
    var part := Text.Strip(piece);
    CountPositiveHasMember(part, '-');
  }

  lemma {:induction false} CountPositiveHasMember(s: string, c: char)
    requires Text.Count(s, c) > 0
    ensures c in s
  {
    if s[0] != c {
      CountPositiveHasMember(s[1..], c);
    }
  }

  /** Two numerals joined by a dash hold no character other than digits
      and that dash. */
  lemma DashedNumeralsOmit(da: string, db: string, c: char)
    requires forall i :: 0 <= i < |da| ==> Numerals.IsDigit(da[i])
    requires forall i :: 0 <= i < |db| ==> Numerals.IsDigit(db[i])
    requires !Numerals.IsDigit(c) && c != '-'
    ensures c !in da + "-" + db
  {
    var w := da + "-" + db;
    forall i | 0 <= i < |w| ensures w[i] != c {
      if i < |da| { assert w[i] == da[i]; } else if i > |da| { assert w[i] == db[i - |da| - 1]; }
    }
  }

  /** Two numerals joined by a dash are not the keyword and form a single
      comma-separated piece. */
  lemma DashedNumeralsArePiece(da: string, db: string)
    requires |da| > 0 && |db| > 0
    requires forall i :: 0 <= i < |da| ==> Numerals.IsDigit(da[i])
    requires forall i :: 0 <= i < |db| ==> Numerals.IsDigit(db[i])
    ensures !Text.IsAllKeyword(da + "-" + db)
    ensures Text.Split(da + "-" + db, ',') == [da + "-" + db]
  {
    DashedNumeralsAreNotKeyword(da, db);
    DashedNumeralsOmit(da, db, ',');
    Text.SplitWithoutSeparator(da + "-" + db, ',');
  }

  lemma DashedNumeralsAreNotKeyword(da: string, db: string)
    ensures !Text.IsAllKeyword(da + "-" + db)
  {
    var w := da + "-" + db;
    if |w| == 3 {
      Text.KeywordHasOnlyLetters(w, |da|);
    }
  }

  /** The expression "a-b" is one piece reading as the span from a to b. */
  lemma SpanExpressionTokens(a: nat, b: nat)
    ensures var w := Numerals.Decimal(a) + "-" + Numerals.Decimal(b);
      && !Text.IsAllKeyword(w)
      && Tokens(Text.Split(w, ',')) == [Span(a, b)]
  {
    var w := Numerals.Decimal(a) + "-" + Numerals.Decimal(b);
    DashedNumeralsArePiece(Numerals.Decimal(a), Numerals.Decimal(b));
    SpanTokenOfDecimals(a, b);
    assert Tokens([w]) == [Span(a, b)];
  }

  /** The expression "a-b" selects exactly the available scans from a to b,
      ascending, and reports no error. */
  lemma SpanExpressionSelects(a: nat, b: nat, available: seq<int>)
    ensures var r := ParseScanRange(Numerals.Decimal(a) + "-" + Numerals.Decimal(b), available);
      && !r.invalidFormat
      && StrictlyAscending(r.scans)
      && forall x :: x in r.scans <==> x in available && a <= x <= b
  {
    var w := Numerals.Decimal(a) + "-" + Numerals.Decimal(b);
    SpanExpressionTokens(a, b);
    var tokens := Tokens(Text.Split(w, ','));
    assert Requested(tokens) == Request(Contribution(Span(a, b)), false) by {
      assert tokens[1..] == [];
    }
    RequestedUpToFirstMalformed(tokens, 0);
    assert FirstMalformed(tokens) == 1;
    assert !ParseScanRange(w, available).invalidFormat;
  }

  /** A reversed range selects nothing: "3-1" against scans 1, 2, 3. */
  lemma ReversedRangeSelectsNothing()
    ensures ParseScanRange("3-1", [1, 2, 3]) == Selection([], false)
  {
    assert Numerals.Decimal(3) + "-" + Numerals.Decimal(1) == "3-1";
    SpanExpressionSelects(3, 1, [1, 2, 3]);
  }

  /** The token loop over "1", "x", "3" collects scan 1 and then fails. */
  lemma RequestedOneLetterThree()
    ensures Requested(Tokens(["1", "x", "3"])) == Request({1}, true)
    ensures ParseToken(["1", "x", "3"][1]).Malformed?
  {
    var tokens := Tokens(["1", "x", "3"]);
    OneAndLetterTokens();
    assert tokens[1..][0].Malformed?;
    assert Requested(tokens[1..]) == Request({}, true);
  }

  lemma OneAndLetterTokens()
    ensures ParseToken("1") == Single(1)
    ensures ParseToken("x").Malformed?
  {
    assert Numerals.Decimal(1) == "1";
    SingleTokenOfDecimal(1);
    LetterIsMalformed("x");
  }

  /** "1,x,3" is neither spelling of "all" and splits into its three pieces. */
  lemma SplitOneLetterThree()
    ensures !Text.IsAllKeyword("1,x,3")
    ensures Text.Split("1,x,3", ',') == ["1", "x", "3"]
  {
    var pieces := ["1", "x", "3"];
    assert !Text.IsAllKeyword("1,x,3") by {
      Text.KeywordHasOnlyLetters("1,x,3", 0);
    }
    assert Text.Split("1,x,3", ',') == pieces by {
      assert Text.Join(pieces, ',') == "1,x,3" by {
        assert pieces[1..] == ["x", "3"];
        assert pieces[1..][1..] == ["3"];
        assert Text.Join(["3"], ',') == "3";
        assert Text.Join(["x", "3"], ',') == "x,3";
      }
      Text.SplitJoin(pieces, ',');
    }
  }

  /** A malformed piece stops the parse but keeps what came before it: "1,x,3"
      against scans 1, 2, 3 selects scan 1 and reports the format error. */
  lemma MalformedPieceKeepsEarlierScans()
    ensures ParseScanRange("1,x,3", [1, 2, 3]) == Selection([1], true)
  {
    SplitOneLetterThree();
    RequestedOneLetterThree();
    SelectionIsSortedIntersection("1,x,3", [1, 2, 3], [1]);
  }

  lemma LetterIsMalformed(piece: string)
    requires |piece| == 1 && 'a' <= piece[0] <= 'z'
    ensures ParseToken(piece).Malformed?
  {
    Text.StripByKeepsTrimmed(piece, Text.IsSpace);
    Text.StripByKeepsTrimmed(piece, Numerals.IsIntSpace);
    assert !Numerals.WellGrouped(piece);
  }
}

=== FILE: seqs.dfy ===
/** Sequence facts shared by the model: element sets, distinctness, ascending
    order, row masks, first-appearance de-duplication and sorting. */
module Seqs {

  function Elems<T>(s: seq<T>): set<T> {
    set x | x in s
  }

  predicate Distinct<T(==)>(s: seq<T>) {
    forall i, j :: 0 <= i < j < |s| ==> s[i] != s[j]
  }

  predicate StrictlyAscending(s: seq<int>) {
    forall i, j :: 0 <= i < j < |s| ==> s[i] < s[j]
  }

  lemma ElemsConcat<T>(a: seq<T>, b: seq<T>)
    ensures Elems(a + b) == Elems(a) + Elems(b)
  {
    assert forall x :: x in a + b <==> x in a || x in b;
  }

  /** Number of positions selected by a row mask. */
  function CountTrue(mask: seq<bool>): nat {
    if |mask| == 0 then 0
    else CountTrue(mask[..|mask| - 1]) + (if mask[|mask| - 1] then 1 else 0)
  }

  /** The elements of `s` whose mask bit is set, in their original order
      (boolean indexing of a column). */
  function Keep<T>(s: seq<T>, mask: seq<bool>): (r: seq<T>)
    requires |mask| == |s|
    ensures |r| == CountTrue(mask)
  {
    if |s| == 0 then []
    else
      var n := |s| - 1;
      Keep(s[..n], mask[..n]) + (if mask[n] then [s[n]] else [])
  }

  /** The positions whose mask bit is set, ascending. */
  function TrueIndices(mask: seq<bool>): (idx: seq<nat>)
    ensures |idx| == CountTrue(mask)
    ensures forall k :: 0 <= k < |idx| ==> idx[k] < |mask| && mask[idx[k]]
    ensures forall i :: 0 <= i < |mask| && mask[i] ==> i in idx
    ensures forall k, l :: 0 <= k < l < |idx| ==> idx[k] < idx[l]
  {
    if |mask| == 0 then []
    else
      var n := |mask| - 1;
      var rest := TrueIndices(mask[..n]);
      assert forall i :: 0 <= i < n && mask[i] ==> i in rest by {
        forall i | 0 <= i < n && mask[i] ensures i in rest {
          assert mask[..n][i];
        }
      }
      rest + (if mask[n] then [n] else [])
  }

  /** Keeping the masked rows is the same as reading the column at the
      ascending list of selected row numbers: the kept values are exactly the
      selected rows, in row order. */
  lemma {:induction false} KeepReadsSelectedRows<T>(s: seq<T>, mask: seq<bool>)
    requires |mask| == |s|
    ensures |Keep(s, mask)| == |TrueIndices(mask)|
    ensures forall k :: 0 <= k < |TrueIndices(mask)| ==> Keep(s, mask)[k] == s[TrueIndices(mask)[k]]
  {
    if |s| > 0 {
      var n := |s| - 1;
      KeepReadsSelectedRows(s[..n], mask[..n]);
      var idx := TrueIndices(mask[..n]);
      forall k | 0 <= k < |idx|
        ensures Keep(s, mask)[k] == s[TrueIndices(mask)[k]]
      {
        assert s[..n][idx[k]] == s[idx[k]];
      }
    }
  }

  /** Keep commutes with any element-wise map of the column: masking the
      mapped column gives the map of the masked column. */
  lemma {:induction false} KeepMap<T, U>(s: seq<T>, m: seq<U>, mask: seq<bool>, f: T -> U)
    requires |mask| == |s| == |m|
    requires forall i :: 0 <= i < |s| ==> m[i] == f(s[i])
    ensures |Keep(m, mask)| == |Keep(s, mask)|
    ensures forall k :: 0 <= k < |Keep(s, mask)| ==> Keep(m, mask)[k] == f(Keep(s, mask)[k])
  {
    if |s| > 0 {
      var n := |s| - 1;
      KeepMap(s[..n], m[..n], mask[..n], f);
    }
  }

  /** Index of the first occurrence of `x` in `s`. */
  function FirstIndex<T(==)>(s: seq<T>, x: T): (i: nat)
    requires x in s
    ensures i < |s| && s[i] == x
    ensures forall j :: 0 <= j < i ==> s[j] != x
  {
    if s[0] == x then 0 else 1 + FirstIndex(s[1..], x)
  }

  /** The distinct values of `s`, each at the place it first appears. */
  function Unique<T(==)>(s: seq<T>): (r: seq<T>)
    ensures Distinct(r)
    ensures Elems(r) == Elems(s)
  {
    if |s| == 0 then []
    else
      var u := Unique(s[..|s| - 1]);
      var last := s[|s| - 1];
      assert s == s[..|s| - 1] + [last];
      ElemsConcat(s[..|s| - 1], [last]);
      ElemsConcat(u, [last]);
      if last in u then u else u + [last]
  }

  lemma {:induction false} FirstIndexOfPrefix<T>(p: seq<T>, y: T, x: T)
    requires x in p
    ensures FirstIndex(p + [y], x) == FirstIndex(p, x)
  {
    if p[0] != x {
      assert (p + [y])[1..] == p[1..] + [y];
      FirstIndexOfPrefix(p[1..], y, x);
    }
  }

  /** The values of `u` occur in `s` and are listed in the order of their
      first occurrence there. */
  predicate AppearanceOrdered<T(==)>(u: seq<T>, s: seq<T>) {
    forall i, j :: 0 <= i < j < |u| ==>
      u[i] in s && u[j] in s && FirstIndex(s, u[i]) < FirstIndex(s, u[j])
  }

  /** Appending to `p` keeps the first occurrences of the values already in
      it, and a value new to `p` first occurs after all of them. */
  lemma AppearanceOrderedAppend<T>(u: seq<T>, p: seq<T>, last: T)
    requires AppearanceOrdered(u, p) && Elems(u) <= Elems(p)
    ensures AppearanceOrdered(u, p + [last])
    ensures last !in p ==> AppearanceOrdered(u + [last], p + [last])
  {
    var s := p + [last];
    forall x | x in u
      ensures x in p && x in s && FirstIndex(s, x) == FirstIndex(p, x)
    {
      assert x in Elems(u);
      FirstIndexOfPrefix(p, last, x);
    }
    if last !in p {
      assert FirstIndex(s, last) == |p|;
      var r := u + [last];
      forall i, j | 0 <= i < j < |r|
        ensures r[i] in s && r[j] in s && FirstIndex(s, r[i]) < FirstIndex(s, r[j])
      {
        assert r[i] == u[i];
        if j < |u| {
          assert r[j] == u[j];
        }
      }
    }
  }

  /** Unique lists values in the order of their first appearance. */
  lemma {:induction false} UniqueKeepsFirstAppearanceOrder<T>(s: seq<T>)
    ensures AppearanceOrdered(Unique(s), s)
  {
    if |s| > 0 {
      var p := s[..|s| - 1];
      var last := s[|s| - 1];
      assert s == p + [last];
      var u := Unique(p);
      UniqueKeepsFirstAppearanceOrder(p);
      assert Elems(u) == Elems(p);
      AppearanceOrderedAppend(u, p, last);
      assert last in u <==> last in p by {
        assert last in u <==> last in Elems(u);
        assert last in p <==> last in Elems(p);
      }
      assert AppearanceOrdered(Unique(s), s);
    } else {
      assert Unique(s) == [];
    }
  }

  /** The elements of `s` that belong to `keep`, in order. */
  function Filter<T>(s: seq<T>, keep: set<T>): (r: seq<T>)
    ensures Elems(r) == Elems(s) * keep
  {
    if |s| == 0 then []
    else
      var rest := Filter(s[1..], keep);
      assert s == [s[0]] + s[1..];
      ElemsConcat([s[0]], s[1..]);
      ElemsConcat([s[0]], rest);
      if s[0] in keep then [s[0]] + rest else rest
  }

  /** A head below the first element of a strictly ascending sequence keeps
      it strictly ascending. */
  lemma AscendingPrepend(h: int, t: seq<int>)
    requires StrictlyAscending(t)
    requires |t| > 0 ==> h < t[0]
    ensures StrictlyAscending([h] + t)
  {
    var r := [h] + t;
    forall i, j | 0 <= i < j < |r| ensures r[i] < r[j] {
      if i > 0 {
        assert r[i] == t[i - 1] && r[j] == t[j - 1];
      } else if j > 1 {
        assert t[0] < t[j - 1];
      }
    }
  }

  /** The recursive step of Insert: an element above the head goes into
      the tail, and the head stays in front. */
  lemma InsertStep(x: int, s: seq<int>, rest: seq<int>)
    requires StrictlyAscending(s) && |s| > 0 && s[0] < x
    requires StrictlyAscending(rest) && Elems(rest) == Elems(s[1..]) + {x}
    requires |rest| > 0 && rest[0] == (if |s| > 1 && s[1] < x then s[1] else x)
    ensures StrictlyAscending([s[0]] + rest)
    ensures Elems([s[0]] + rest) == Elems(s) + {x}
  {
    assert s == [s[0]] + s[1..];
    ElemsConcat([s[0]], s[1..]);
    ElemsConcat([s[0]], rest);
    assert |s| > 1 ==> s[0] < s[1];
    AscendingPrepend(s[0], rest);
  }

  /** Inserts `x` into a strictly ascending sequence, keeping it strictly
      ascending and dropping `x` if already present. */
  function Insert(x: int, s: seq<int>): (r: seq<int>)
    requires StrictlyAscending(s)
    ensures StrictlyAscending(r)
    ensures Elems(r) == Elems(s) + {x}
    ensures |r| > 0 && r[0] == (if |s| > 0 && s[0] < x then s[0] else x)
  {
    if |s| == 0 then [x]
    else if x < s[0] then
      AscendingPrepend(x, s);
      ElemsConcat([x], s);
      [x] + s
    else if x == s[0] then
      assert s[0] in Elems(s);
      s
    else
      HeadLeavesTail(s);
      var rest := Insert(x, s[1..]);
      InsertStep(x, s, rest);
      [s[0]] + rest
  }

  /** The distinct values of `s` in ascending order (Python's sorted(set(s))). */
  function SortDistinct(s: seq<int>): (r: seq<int>)
    ensures StrictlyAscending(r)
    ensures Elems(r) == Elems(s)
  {
    if |s| == 0 then []
    else
      var rest := SortDistinct(s[1..]);
      assert s == [s[0]] + s[1..];
      ElemsConcat([s[0]], s[1..]);
      assert Elems(s) == Elems(rest) + {s[0]};
      Insert(s[0], rest)
  }

  /** A strictly ascending sequence is determined by its set of elements. */
  lemma {:induction false} AscendingDeterminedByElems(a: seq<int>, b: seq<int>)
    requires StrictlyAscending(a) && StrictlyAscending(b)
    requires Elems(a) == Elems(b)
    ensures a == b
  {
    assert |a| > 0 ==> a[0] in Elems(b);
    assert |b| > 0 ==> b[0] in Elems(a);
    if |a| > 0 {
      HeadIsLeast(a);
      HeadIsLeast(b);
      HeadLeavesTail(a);
      HeadLeavesTail(b);
      AscendingDeterminedByElems(a[1..], b[1..]);
      assert a == [a[0]] + a[1..] && b == [b[0]] + b[1..];
    }
  }

  /** The head of a strictly ascending sequence is its least element. */
  lemma HeadIsLeast(a: seq<int>)
    requires StrictlyAscending(a) && |a| > 0
    ensures forall x :: x in Elems(a) ==> a[0] <= x
  {
    forall x | x in Elems(a) ensures a[0] <= x {
      var i :| 0 <= i < |a| && a[i] == x;
      assert i == 0 || a[0] < a[i];
    }
  }

  /** Removing the head of a strictly ascending sequence removes exactly that
      value from its elements, and the tail stays strictly ascending. */
  lemma HeadLeavesTail(a: seq<int>)
    requires StrictlyAscending(a) && |a| > 0
    ensures StrictlyAscending(a[1..])
    ensures Elems(a[1..]) == Elems(a) - {a[0]}
  {
    assert a == [a[0]] + a[1..];
    ElemsConcat([a[0]], a[1..]);
    forall x | x in a[1..] ensures x != a[0] {
      var i :| 0 <= i < |a[1..]| && a[1..][i] == x;
      assert a[i + 1] == x;
    }
  }

  /** Concatenation of a sequence of sequences, in order. */
  function Flatten<T>(ss: seq<seq<T>>): seq<T> {
    if |ss| == 0 then [] else Flatten(ss[..|ss| - 1]) + ss[|ss| - 1]
  }

  /** Flattening distributes over concatenation of the outer sequence. */
  lemma {:induction false} FlattenConcat<T>(a: seq<seq<T>>, b: seq<seq<T>>)
    ensures Flatten(a + b) == Flatten(a) + Flatten(b)
  {
    if |b| > 0 {
      var n := |b| - 1;
      assert (a + b)[..|a + b| - 1] == a + b[..n];
      FlattenConcat(a, b[..n]);
    } else {
      assert a + b == a;
    }
  }

  /** The i-th inner sequence appears whole and in place: after everything
      before it and before everything after it. */
  lemma {:induction false} FlattenAt<T>(ss: seq<seq<T>>, i: nat)
    requires i < |ss|
    ensures Flatten(ss) == Flatten(ss[..i]) + ss[i] + Flatten(ss[i + 1..])
  {
    var before := ss[..i] + [ss[i]];
    assert ss == before + ss[i + 1..];
    FlattenConcat(before, ss[i + 1..]);
    assert before[..|before| - 1] == ss[..i];
    assert Flatten(before) == Flatten(ss[..i]) + ss[i];
  }

  /** An empty inner sequence contributes nothing: dropping it leaves the
      flattening unchanged. */
  lemma {:induction false} FlattenSkipsEmpty<T>(ss: seq<seq<T>>, i: nat)
    requires i < |ss| && ss[i] == []
    ensures Flatten(ss) == Flatten(ss[..i] + ss[i + 1..])
  {
    FlattenAt(ss, i);
    FlattenConcat(ss[..i], ss[i + 1..]);
  }
}

=== FILE: tables.dfy ===
/** A parsed measurement table: named columns of equal height, each holding
    integers, reals or text as pandas typed it on reading, plus the column-wise
    operations the pipeline applies (row masks and unit conversion). */
module Tables {
  import opened Results
  import opened Seqs

  /** Column headers of the potentiostat export. */
  const ScanColumn: string := "Scan"
  const PotentialColumn: string := "WE(1).Potential (V)"
  const CurrentColumn: string := "WE(1).Current (A)"
  const BasePotentialColumn: string := "WE(1).Base.Potential (V)"
  const DeltaCurrentColumn: string := "WE(1).\U{03B4}.Current (A)"

  /** Amperes to microamperes. */
  const MicroPerUnit: real := 1000000.0

  datatype Column = Integers(ints: seq<int>) | Reals(reals: seq<real>) | Texts(texts: seq<string>) {

    function Length(): nat {
      match this
      case Integers(v) => |v|
      case Reals(v) => |v|
      case Texts(v) => |v|
    }

    /** Whether `*=` with a float succeeds: numbers, or no cell at all. */
    predicate Numeric() {
      !Texts? || |texts| == 0
    }
  }

  /** The numeric value of row `i` of a number column. */
  function ValueAt(c: Column, i: nat): real
    requires !c.Texts? && i < c.Length()
  {
    if c.Integers? then c.ints[i] as real else c.reals[i]
  }

  datatype Frame = Frame(columns: map<string, Column>, height: nat) {
    predicate WellFormed() {
      forall name :: name in columns ==> columns[name].Length() == height
    }
  }

  /** A table whose columns all have the same number of rows. */
  type Table = f: Frame | f.WellFormed() witness Frame(map[], 0)

  /** The exceptions process_cv and process_dpv raise, which the batch loop reports. */
  datatype Error =
    | MissingColumn(name: string)       // KeyError on a column lookup
    | NonNumericColumn(name: string)    // TypeError from `*= 1e6` on text
    | ColorIndexOutOfRange(index: nat)  // IndexError on file_colors[file_index]
    | ScanColumnNotInteger              // a Scan column pandas did not read as integers
    | Unreadable                        // read_csv raised

  /** The rows of `c` whose mask bit is set (df[mask][name]). */
  function KeepRows(c: Column, mask: seq<bool>): (r: Column)
    requires |mask| == c.Length()
    ensures r.Length() == CountTrue(mask)
    ensures r.Integers? == c.Integers? && r.Reals? == c.Reals? && r.Texts? == c.Texts?
  {
    match c
    case Integers(v) => Integers(Keep(v, mask))
    case Reals(v) => Reals(Keep(v, mask))
    case Texts(v) => Texts(Keep(v, mask))
  }

  /** The rows of `c` at the given row numbers, in that order. */
  function Rows(c: Column, idx: seq<nat>): (r: Column)
    requires forall k :: 0 <= k < |idx| ==> idx[k] < c.Length()
    ensures r.Length() == |idx|
  {
    match c
    case Integers(v) =>
      assert |v| == c.Length();
      Integers(seq(|idx|, k requires 0 <= k < |idx| => v[idx[k]]))
    case Reals(v) =>
      assert |v| == c.Length();
      Reals(seq(|idx|, k requires 0 <= k < |idx| => v[idx[k]]))
    case Texts(v) =>
      assert |v| == c.Length();
      Texts(seq(|idx|, k requires 0 <= k < |idx| => v[idx[k]]))
  }

  /** Masking a column reads exactly the rows whose bit is set, in row order. */
  lemma KeepRowsReadsSelectedRows(c: Column, mask: seq<bool>)
    requires |mask| == c.Length()
    ensures KeepRows(c, mask) == Rows(c, TrueIndices(mask))
  {
    match c
    case Integers(v) => KeepReadsSelectedRows(v, mask);
    case Reals(v) => KeepReadsSelectedRows(v, mask);
    case Texts(v) => KeepReadsSelectedRows(v, mask);
  }

  /** `column *= factor`: every value multiplied, integers becoming reals; a
      text column with any cell raises TypeError (None). */
  function Times(c: Column, factor: real): (r: Option<Column>)
    ensures r.Some? <==> c.Numeric()
    ensures r.Some? ==> r.value.Length() == c.Length()
    ensures r.Some? && !c.Texts? ==>
      (r.value.Reals? && forall i :: 0 <= i < c.Length() ==> r.value.reals[i] == ValueAt(c, i) * factor)
  {
    match c
    case Integers(v) => Some(Reals(seq(|v|, i requires 0 <= i < |v| => v[i] as real * factor)))
    case Reals(v) => Some(Reals(seq(|v|, i requires 0 <= i < |v| => v[i] * factor)))
    case Texts(v) => if |v| == 0 then Some(c) else None
  }

  /** Converting twice multiplies by the product of the factors: applying the
      ampere-to-microampere conversion twice scales by 10^12. */
  lemma TimesTwice(c: Column)
    requires c.Numeric()
    ensures Times(c, MicroPerUnit).Some?
    ensures Times(Times(c, MicroPerUnit).value, MicroPerUnit) == Times(c, MicroPerUnit * MicroPerUnit)
  {
    var once := Times(c, MicroPerUnit).value;
    if !c.Texts? {
      var twice := Times(once, MicroPerUnit).value.reals;
      var direct := Times(c, MicroPerUnit * MicroPerUnit).value.reals;
      assert |twice| == |direct| == c.Length();
      forall i | 0 <= i < |twice| ensures twice[i] == direct[i] {
        var v := ValueAt(c, i);
        assert ValueAt(once, i) == v * MicroPerUnit;
        assert twice[i] == (v * MicroPerUnit) * MicroPerUnit;
        assert direct[i] == v * (MicroPerUnit * MicroPerUnit);
      }
      assert twice == direct;
    }
  }

  /** The conversion is not idempotent: a column holding a non-zero value
      changes when converted. */
  lemma TimesChangesNonZero(c: Column, i: nat)
    requires !c.Texts? && i < c.Length() && ValueAt(c, i) != 0.0
    ensures Times(c, MicroPerUnit) != Some(c)
  {
    if c.Reals? {
      assert Times(c, MicroPerUnit).value.reals[i] != c.reals[i];
    }
  }

  /** Filtering rows and converting units commute. */
  lemma KeepRowsAfterTimes(c: Column, mask: seq<bool>, factor: real)
    requires |mask| == c.Length() && c.Numeric()
    ensures Times(KeepRows(c, mask), factor).Some?
    ensures KeepRows(Times(c, factor).value, mask) == Times(KeepRows(c, mask), factor).value
  {
    match c
    case Integers(v) => KeepIntegersAfterTimes(v, mask, factor);
    case Reals(v) => KeepRealsAfterTimes(v, mask, factor);
    case Texts(v) =>
  }

  lemma KeepIntegersAfterTimes(v: seq<int>, mask: seq<bool>, factor: real)
    requires |mask| == |v|
    ensures KeepRows(Times(Integers(v), factor).value, mask) == Times(KeepRows(Integers(v), mask), factor).value
  {
    var c := Integers(v);
    var m := Times(c, factor).value.reals;
    var f := (x: int) => x as real * factor;
    assert |v| == c.Length() == |m|;
    forall i | 0 <= i < |v| ensures m[i] == f(v[i]) {
      assert m[i] == ValueAt(c, i) * factor;
    }
    KeepMap(v, m, mask, f);
    var w := Keep(v, mask);
    assert KeepRows(c, mask) == Integers(w);
    var rhs := Times(Integers(w), factor).value.reals;
    assert |rhs| == |w|;
    forall k | 0 <= k < |w| ensures rhs[k] == Keep(m, mask)[k] {
      assert rhs[k] == ValueAt(Integers(w), k) * factor;
    }
    assert Keep(m, mask) == rhs;
  }

  lemma KeepRealsAfterTimes(v: seq<real>, mask: seq<bool>, factor: real)
    requires |mask| == |v|
    ensures KeepRows(Times(Reals(v), factor).value, mask) == Times(KeepRows(Reals(v), mask), factor).value
  {
    var c := Reals(v);
    var m := Times(c, factor).value.reals;
    var f := (x: real) => x * factor;
    assert |v| == c.Length() == |m|;
    forall i | 0 <= i < |v| ensures m[i] == f(v[i]) {
      assert m[i] == ValueAt(c, i) * factor;
    }
    KeepMap(v, m, mask, f);
    var w := Keep(v, mask);
    assert KeepRows(c, mask) == Reals(w);
    var rhs := Times(Reals(w), factor).value.reals;
    assert |rhs| == |w|;
    forall k | 0 <= k < |w| ensures rhs[k] == Keep(m, mask)[k] {
      assert rhs[k] == ValueAt(Reals(w), k) * factor;
    }
    assert Keep(m, mask) == rhs;
  }
}

=== FILE: text.dfy ===
/** The Python string operations the scan-range parser relies on:
    str.isspace, str.strip, str.split with an explicit separator, and the
    case-insensitive comparison with the keyword "all". */
module Text {

  /** Python's str.isspace for one character. */
  predicate IsSpace(c: char) {
    var n := c as int;
    (9 <= n <= 13) || (28 <= n <= 32) || n == 0x85 || n == 0xA0 || n == 0x1680
    || (0x2000 <= n <= 0x200A) || n == 0x2028 || n == 0x2029 || n == 0x202F
    || n == 0x205F || n == 0x3000
  }

  /** Removes trailing characters satisfying `space`. */
  function TrimEnd(s: string, space: char -> bool): (r: string)
    ensures |r| <= |s| && r == s[..|r|]
    ensures forall i :: |r| <= i < |s| ==> space(s[i])
    ensures |r| > 0 ==> !space(r[|r| - 1])
  {
    if |s| > 0 && space(s[|s| - 1]) then TrimEnd(s[..|s| - 1], space) else s
  }

  /** Number of leading characters of `s` satisfying `space`. */
  function LeadingRun(s: string, space: char -> bool): (n: nat)
    ensures n <= |s|
    ensures forall k :: 0 <= k < n ==> space(s[k])
    ensures n < |s| ==> !space(s[n])
  {
    if |s| > 0 && space(s[0]) then 1 + LeadingRun(s[1..], space) else 0
  }

  /** Removes leading and trailing characters satisfying `space`: the result
      is the infix of `s` that starts after its leading run of such characters
      and is followed only by such characters. */
  function StripBy(s: string, space: char -> bool): (r: string)
    ensures |r| > 0 ==> !space(r[0]) && !space(r[|r| - 1])
    ensures LeadingRun(s, space) + |r| <= |s|
    ensures r == s[LeadingRun(s, space)..LeadingRun(s, space) + |r|]
    ensures forall k :: LeadingRun(s, space) + |r| <= k < |s| ==> space(s[k])
  {
    var i := LeadingRun(s, space);
    var a := s[i..];
    var r := TrimEnd(a, space);
    assert r == s[i..i + |r|];
    assert forall k :: i + |r| <= k < |s| ==> s[k] == a[k - i];
    r
  }

  /** Python's str.strip() with no argument. */
  function Strip(s: string): string {
    StripBy(s, IsSpace)
  }

  /** A string with no removable character at either end is left as it is. */
  lemma StripByKeepsTrimmed(s: string, space: char -> bool)
    requires |s| > 0 ==> !space(s[0]) && !space(s[|s| - 1])
    ensures StripBy(s, space) == s
  {
  }

  /** Number of occurrences of `c` in `s`. */
  function Count(s: string, c: char): nat {
    if |s| == 0 then 0 else (if s[0] == c then 1 else 0) + Count(s[1..], c)
  }

  /** Python's s.split(sep) for a one-character separator: every separator
      cuts, so empty pieces are kept and there is one more piece than there are
      separators. */
  function Split(s: string, sep: char): (parts: seq<string>)
    ensures |parts| == Count(s, sep) + 1
    ensures forall i :: 0 <= i < |parts| ==> sep !in parts[i]
  {
    if |s| == 0 then [""]
    else
      var rest := Split(s[1..], sep);
      if s[0] == sep then [""] + rest else [[s[0]] + rest[0]] + rest[1..]
  }

  /** Python's sep.join(parts). */
  function Join(parts: seq<string>, sep: char): string
    requires |parts| > 0
  {
    if |parts| == 1 then parts[0] else parts[0] + [sep] + Join(parts[1..], sep)
  }

  /** Joining the pieces of a split gives back the original string. */
  lemma {:induction false} JoinSplit(s: string, sep: char)
    ensures Join(Split(s, sep), sep) == s
  {
    if |s| > 0 {
      var rest := Split(s[1..], sep);
      JoinSplit(s[1..], sep);
      if s[0] == sep {
        assert Split(s, sep) == [""] + rest;
        assert ([""] + rest)[1..] == rest;
      } else {
        var parts := [[s[0]] + rest[0]] + rest[1..];
        assert Split(s, sep) == parts;
        if |rest| == 1 {
          assert Join(rest, sep) == rest[0];
        } else {
          assert parts[1..] == rest[1..];
          assert Join(rest, sep) == rest[0] + [sep] + Join(rest[1..], sep);
        }
      }
    }
  }

  lemma {:induction false} SplitSeparatorFree(p: string, tail: string, sep: char)
    requires sep !in p
    ensures Split(p + tail, sep) == [p + Split(tail, sep)[0]] + Split(tail, sep)[1..]
  {
    if |p| > 0 {
      var t := Split(tail, sep);
      var s := p + tail;
      assert s[1..] == p[1..] + tail;
      assert s[0] == p[0] && p[0] != sep;
      SplitSeparatorFree(p[1..], tail, sep);
      var rest := Split(s[1..], sep);
      assert rest[0] == p[1..] + t[0] && rest[1..] == t[1..];
      assert Split(s, sep) == [[s[0]] + rest[0]] + rest[1..];
      assert [p[0]] + (p[1..] + t[0]) == p + t[0];
    } else {
      assert p + tail == tail;
      var t := Split(tail, sep);
      assert p + t[0] == t[0];
      assert t == [t[0]] + t[1..];
    }
  }

  /** Splitting a join of separator-free pieces gives back the pieces. */
  lemma {:induction false} SplitJoin(parts: seq<string>, sep: char)
    requires |parts| > 0
    requires forall i :: 0 <= i < |parts| ==> sep !in parts[i]
    ensures Split(Join(parts, sep), sep) == parts
  {
    if |parts| == 1 {
      SplitSeparatorFree(parts[0], "", sep);
      assert parts[0] + "" == parts[0];
    } else {
      var tail := [sep] + Join(parts[1..], sep);
      assert Join(parts, sep) == parts[0] + tail;
      SplitSeparatorFree(parts[0], tail, sep);
      SplitJoin(parts[1..], sep);
      assert tail[1..] == Join(parts[1..], sep);
      assert Split(tail, sep) == [""] + parts[1..];
      assert parts[0] + "" == parts[0];
      assert ([""] + parts[1..])[1..] == parts[1..];
      assert parts == [parts[0]] + parts[1..];
    }
  }

  /** A string without the separator is one piece. */
  lemma SplitWithoutSeparator(s: string, sep: char)
    requires sep !in s
    ensures Split(s, sep) == [s]
  {
    SplitSeparatorFree(s, "", sep);
    assert s + "" == s;
  }

  /** A string starting with the separator splits into an empty first piece. */
  lemma LeadingSeparatorGivesEmptyPiece(s: string, sep: char)
    requires |s| > 0 && s[0] == sep
    ensures Split(s, sep)[0] == ""
  {
  }

  /** Python's str.lower() on ASCII letters; other characters are unchanged. */
  function LowerAscii(c: char): char {
    if 'A' <= c <= 'Z' then (c as int + 32) as char else c
  }

  /** Python's s.lower() == "all". No character outside ASCII lower-cases to
      'a' or 'l', so ASCII case folding decides this comparison exactly. */
  predicate IsAllKeyword(s: string) {
    |s| == 3 && LowerAscii(s[0]) == 'a' && LowerAscii(s[1]) == 'l' && LowerAscii(s[2]) == 'l'
  }

  /** The keyword is matched in any of its eight capitalisations and nothing else. */
  lemma {:induction false} AllKeywordSpellings(s: string)
    ensures IsAllKeyword(s) <==> s in {"all", "alL", "aLl", "aLL", "All", "AlL", "ALl", "ALL"}
  {
    if |s| == 3 {
      assert LowerAscii(s[0]) == 'a' <==> s[0] == 'a' || s[0] == 'A';
      assert LowerAscii(s[1]) == 'l' <==> s[1] == 'l' || s[1] == 'L';
      assert LowerAscii(s[2]) == 'l' <==> s[2] == 'l' || s[2] == 'L';
      assert s == [s[0], s[1], s[2]];
    }
  }

  /** No string containing `c` can be the keyword when `c` is not a letter of it. */
  lemma KeywordHasOnlyLetters(s: string, i: nat)
    requires i < |s| && !(s[i] in "aAlL")
    ensures !IsAllKeyword(s)
  {
  }
}
